=== FILE: README.md ===
# cloudwatch-json-logs in Dafny

`cjl` is a command-line client for CloudWatch Logs. It takes a log group, an optional
filter and a time window, and fetches the matching log events page by page. It decodes
the JSON `message` of each event, merges the event's own CloudWatch keys into it under
an `aws.` prefix, and prints the selected fields of every event as one tab-separated
line. With `--force-order` it first sorts all events by the message's `timestamp`.

This project models that pipeline in `cjl.py`:

- `TimeResolver` (`time_resolver.dfy`): `parse_time`. A relative duration such as
  `6h` becomes the epoch-millisecond instant that long before now.
- `FilterTranslator` (`filter_translator.dfy`): `parse_filter`. The `re.sub` that
  puts `$.` before every compared identifier is written as an explicit left-to-right
  scanner over non-overlapping matches. It is proved against a declarative
  description of the pattern: every match is an instance, and every instance is
  found.
- `FieldSelector` (`field_selector.dfy`): `load_fields`.
- `EventNormalizer` (`event_normalizer.dfy`): `parse_event`. `ParseEvent` is a method
  that works step by step on the envelope map. It is proved equal to the
  specification function `Normalize`, and the lemmas about the normalized event are
  stated on `Normalize`.
- `EventStream` (`event_stream.dfy`): `stream_events`. The nested loops are methods
  proved against `NormalizeAll`, which normalizes the flattened pages until the first
  failure.
- `Ordering` (`ordering.dfy`): the stable sort of line 125, and the KeyError it raises.
- `OutputFormatter` (`output_formatter.dfy`): the `str(...)` / `'\t'.join` line of
  lines 127-130.
- `Cli` (`cli.dfy`): the request of lines 112-119, including the `None` filter of
  line 119, and the output of lines 123-130 as a whole.
- `Values` (`values.dfy`) and `Text` (`text.dfy`): shared definitions. `Values`
  holds the JSON values, the errors, `Option` and `Result`. `Text` holds
  `str.split`, `str.join`, the regex character classes and decimal digits.

Foreign code is passed in as function parameters:

- `decode` stands for `json.loads`; `None` means the text is not JSON.
- `parseIso` stands for `dateutil.parser.parse` followed by
  `replace(tzinfo=UTC)`. It gives the epoch millisecond, or `None` when the parser
  raises any exception on the text (a ParserError, or an OverflowError for a number
  too large for it).
- `show` stands for `str` of a date-time, a list or a dictionary.
- `fetch` stands for the paginator: it gives the pages of envelopes returned for a
  request.
- `nowMs` stands for the clock.

An exception the source raises is a `Failure` of the `Error` datatype:

- `UnsupportedTime`: `NotImplemented()` is not callable, so it raises a TypeError.
- `OutOfRange`: an OverflowError from date arithmetic.
- `KeyMissing(key)`: a KeyError.
- `NotJson`: a JSONDecodeError.
- `BadDate`: any exception the date parser raises on the text: a ParserError, or an
  OverflowError for a number that does not fit.
- `WrongType`: a TypeError from a value of the wrong type.

The model follows the code on these points:

- The merged keys use the `aws.` prefix, and the local date-time is
  `aws.timestamp_py`.
- The message can collide with a renamed key. A message key `aws.x` is overridden by
  an envelope key `x` (`EventNormalizer.EnvelopeWins`).
- `aws.timestamp` is looked up on the merged event, not on the envelope. A message
  key literally named `aws.timestamp` satisfies the lookup when the envelope has no
  `timestamp` (`EventNormalizer.MessageTimestampUsed`); without either, the lookup
  fails (`EventNormalizer.MissingTimestampFails`).
- Absolute ISO-8601 times, described in the usage text, are not implemented by
  `parse_time`. They are rejected like any other text.

## Model

| member | source | states |
|---|---|---|
| Text.Split | cjl.py:47 | `str.split` with a separator never returns an empty list |
| Text.JoinSplit | cjl.py:47 | joining the pieces of a split with the separator gives back the text |
| Text.SplitPieces | cjl.py:47 | a split has one more piece than the text has separators, and no piece holds the separator |
| Text.SplitJoin | cjl.py:47 | splitting the join of one or more separator-free pieces gives back exactly those pieces |
| Text.DigitsRoundTrip | cjl.py:128 | the decimal text `str` writes for a natural number reads back as that number |
| TimeResolver.UnitMs | cjl.py:18-23 | `m` is a minute (60000 ms), `h` an hour (3600000 ms) and `d` a day (86400000 ms) |
| TimeResolver.LeadingDigits | cjl.py:16 | the greedy `\d+` run: every character in it is a digit and the next one is not |
| TimeResolver.MatchDuration | cjl.py:16-23 | the `re.match` of line 16: a match means the text starts with digits and a unit letter, and its unit is a minute, an hour or a day |
| TimeResolver.MatchDurationIff | cjl.py:16-17 | the anchored pattern matches exactly when the text starts with one or more digits immediately followed by `m`, `h` or `d` |
| TimeResolver.ParseTime | cjl.py:14-28 | `None` exactly for a missing or empty argument; the only failures are an unsupported format or a date before year 1; every bound lies between year 1 and now |
| TimeResolver.ParseTimeRelative | cjl.py:16-26 | digits N, a unit letter and any trailing text give now minus N units in milliseconds, or the out-of-range failure before year 1 |
| TimeResolver.ParseTimeRejects | cjl.py:16-28 | non-empty text that does not start with a duration (`6`, `h6`, ` 6h`, `-6h`) fails as unsupported |
| TimeResolver.ParseTimeAsWritten | cjl.py:14-28 | `parse_time` as written: `None` exactly for a missing or empty argument, the same two failures, and every bound between year 1 and now shifted back by the local zone offset |
| TimeResolver.AsWrittenIsShifted | cjl.py:25-26 | the source's resolver fails exactly where the corrected one does, and every bound it gives is the corrected bound minus the local zone offset |
| TimeResolver.AsWrittenSixHoursWestOfUtc | cjl.py:25-26 | five hours west of Greenwich, the source turns `6h` into now minus one hour, where the corrected resolver gives now minus six hours |
| FilterTranslator.OperatorAt | cjl.py:35 | an operator found at a position is one of the eight alternatives and fits in the text |
| FilterTranslator.OperatorAtIsFirstAlternative | cjl.py:35 | the operator found is the first alternative, in pattern order, that the text starts with, so `<=` and `>=` are never chosen |
| FilterTranslator.OperatorAtSound | cjl.py:35 | the text really starts with the operator found |
| FilterTranslator.OperatorAtComplete | cjl.py:35 | an operator alternative that the text starts with is always found |
| FilterTranslator.WordEnd | cjl.py:35 | `\w+` is the maximal run of word characters |
| FilterTranslator.Replacement | cjl.py:34-38 | the text `\1$.\2\3` is the matched lead, identifier and operator plus the two marker characters |
| FilterTranslator.ReplacementMarker | cjl.py:34-38 | taking `$.` out of the replacement leaves the match without the whitespace before its operator |
| FilterTranslator.IdentOpAt | cjl.py:35 | a match from an identifier start begins at the lead, lies within the text, ends after the identifier, and takes at most one character between the identifier and the operator |
| FilterTranslator.IdentOpAtParts | cjl.py:35 | a match takes the whole word run; it takes one whitespace character before the operator when the operator matches after it, and otherwise the operator directly after the word |
| FilterTranslator.MatchAt | cjl.py:35 | a match at a position lies within the text and ends after that position |
| FilterTranslator.MatchAtSound | cjl.py:35 | every match is an instance of the pattern (lead, maximal identifier, at most one whitespace, operator), and a whitespace character after the identifier is left out of the match only when no operator follows it |
| FilterTranslator.MatchAtComplete | cjl.py:34-38 | wherever an instance of the pattern starts, the scanner finds a match |
| FilterTranslator.NoMatchWithoutInstance | cjl.py:34-38 | where no instance of the pattern starts, the scanner finds no match |
| FilterTranslator.RewriteFrom | cjl.py:34-38 | `re.sub` from a position on: the output is never shorter than the rest of the text |
| FilterTranslator.Rewrite | cjl.py:34-38 | `re.sub` over the whole filter never makes it shorter |
| FilterTranslator.RewriteFromGrows | cjl.py:34-38 | once a substitution happens at or after a position, the output from there is longer than the text |
| FilterTranslator.RewriteChangesIff | cjl.py:34-38 | the substitution changes the filter exactly when the pattern matches somewhere in it |
| FilterTranslator.RewriteCopies | cjl.py:34-38 | a stretch of text where no match starts is copied to the output unchanged |
| FilterTranslator.RewriteAtLeftmost | cjl.py:34-38 | the output up to the leftmost match is the text before it, then `\1$.\2\3` for that match, then the output from the match's end |
| FilterTranslator.TextWithoutMatchUnchanged | cjl.py:34-38 | text in which the pattern matches nowhere is left as it is |
| FilterTranslator.ShorterOperatorInvisible | cjl.py:35 | where `<` or `>` matches before an `=`, the output is as if `<=` or `>=` had matched |
| FilterTranslator.WhitespaceBeforeOperatorDropped | cjl.py:35-36 | one whitespace character between the identifier and an operator is consumed by the match and does not reach the output |
| FilterTranslator.SpaceBeforeKeywordKept | cjl.py:35-36 | the space before `IS` or `NOT` belongs to the operator and is kept in the output |
| FilterTranslator.Translate | cjl.py:31-41 | no pattern exactly for a missing or empty filter; otherwise the result starts with `{ ` and ends with ` }` |
| FilterTranslator.TranslateOf | cjl.py:31-41 | a non-empty filter translates to its rewrite between `{ ` and ` }` |
| FilterTranslator.TranslateWithoutMatch | cjl.py:31-41 | a filter without any identifier-before-operator is wrapped unchanged |
| FilterTranslator.TranslateSingleComparison | cjl.py:31-41 | `a=1` becomes `{ $.a=1 }` |
| FilterTranslator.TranslateDropsOneSpace | cjl.py:31-41 | `x = 1` becomes `{ $.x= 1 }` |
| FieldSelector.LoadFields | cjl.py:44-47 | there is always at least one field |
| FieldSelector.DefaultFieldsJoined | cjl.py:45 | the default text is the four default fields joined with commas |
| FieldSelector.LoadFieldsDefault | cjl.py:44-47 | a missing or empty argument gives `aws.timestamp_py`, `service`, `log_type`, `message` |
| FieldSelector.LoadFieldsPieces | cjl.py:44-47 | otherwise the fields joined by commas give back the argument; there is one more field than there are commas, and no field holds a comma |
| FieldSelector.LoadFieldsOfList | cjl.py:44-47 | comma-free names written comma-separated are read back as exactly that list |
| EventNormalizer.PrefixInjective | cjl.py:60 | renaming keys `aws.<key>` never sends two keys to one |
| EventNormalizer.Prefixed | cjl.py:53-60 | the renamed keys are exactly `aws.<k>` for each envelope key `k` other than `message`, each with the envelope's value |
| EventNormalizer.PrefixedIgnoresMessage | cjl.py:53-60 | popping the message does not change the renamed keys |
| EventNormalizer.DecodeMessage | cjl.py:51 | a decoding failure is a KeyError on `message`, a TypeError or a JSON decode error |
| EventNormalizer.ResolveTimestamp | cjl.py:54-56 | the message keeps its keys and values, except that a `timestamp` becomes the UTC date-time parsed from its text; it fails only on a timestamp that is not text or not a date; without a timestamp the message is unchanged |
| EventNormalizer.EpochMs | cjl.py:63-65 | `aws.timestamp / 1000` is defined exactly for numbers and booleans |
| EventNormalizer.AddLocalTime | cjl.py:63-65 | success exactly when `aws.timestamp` is present and numeric, and then `aws.timestamp_py` is its local date-time; otherwise a KeyError or a TypeError |
| EventNormalizer.Normalize | cjl.py:50-66 | `parse_event`'s result: it raises only a KeyError on `message` or `aws.timestamp`, a TypeError, a JSON decode error or a date parser error, and every event it returns has `aws.timestamp` and `aws.timestamp_py` |
| EventNormalizer.ParseEvent | cjl.py:50-66 | the method's result is `Normalize`, and the envelope afterwards has lost its message exactly when the message was decoded |
| EventNormalizer.NormalizeKeys | cjl.py:58-63 | a normalized event's keys are exactly the message keys, the renamed envelope keys other than the message, and `aws.timestamp_py` |
| EventNormalizer.EnvelopeWins | cjl.py:58-63 | every envelope key but the message and `timestamp_py` (whose renamed key line 63 overwrites) is in the event as `aws.<key>` with its envelope value, overriding a message key of that name |
| EventNormalizer.MessageKeysKept | cjl.py:54-61 | a message key not overridden keeps its value, except that `timestamp` is the UTC date-time parsed from its text |
| EventNormalizer.TimestampOnlyIfPresent | cjl.py:54-56 | the event has a `timestamp` exactly when the message had one, and it is then a UTC date-time |
| EventNormalizer.LocalTimestampAdded | cjl.py:63-65 | every normalized event has `aws.timestamp` and `aws.timestamp_py`, the second the local date-time of the first |
| EventNormalizer.EnvelopeTimestampUsed | cjl.py:58-65 | the envelope's `timestamp` becomes `aws.timestamp`, and `aws.timestamp_py` is taken from it |
| EventNormalizer.MissingTimestampFails | cjl.py:63-65 | without a `timestamp` in the envelope (and no `aws.timestamp` in the message), normalization fails; once the message's `timestamp` has resolved, the failure is the KeyError on `aws.timestamp` of line 64 |
| EventNormalizer.MessageTimestampUsed | cjl.py:58-65 | when the envelope has no `timestamp`, a successful event came from a message holding `aws.timestamp`, and that value is the event's `aws.timestamp` and the source of `aws.timestamp_py` |
| EventNormalizer.NoEnvelopeMessage | cjl.py:53-61 | `aws.message` is in the event exactly when the message itself has that key; the envelope's message is never renamed |
| EventNormalizer.NormalizeFailures | cjl.py:50-66 | a missing message, a non-text message and non-JSON text fail in that order; after a successful decode the only failures are a TypeError, a bad date or a missing `aws.timestamp` |
| EventStream.FlattenAppend | cjl.py:70-71 | flattening distributes over concatenation of page lists |
| EventStream.FlattenSize | cjl.py:70-71 | the flattened stream is as long as all pages together |
| EventStream.FlattenIndex | cjl.py:70-71 | envelope `j` of page `i` sits at the page's offset plus `j` in the flattened stream |
| EventStream.NormalizeAll | cjl.py:69-72 | the events are the successfully normalized envelopes before the first failure, in order; without a failure there is one per envelope; with one, the envelope right after the last event fails with that error |
| EventStream.NormalizeAllSnoc | cjl.py:72 | one more envelope extends the stream by its event, or ends it with its failure, unless the stream has already failed |
| EventStream.NormalizeAllStops | cjl.py:69-72 | once the stream has failed, later envelopes change nothing |
| EventStream.StopsWithinPage | cjl.py:71-72 | a failure within a page ends that page's contribution |
| EventStream.StopsAfterPage | cjl.py:70-72 | a failure within the first pages ends the whole stream |
| EventStream.StreamPage | cjl.py:71-72 | the inner loop extends the stream over one page exactly as `NormalizeAll` does |
| EventStream.StreamEvents | cjl.py:69-72 | the nested loops yield exactly `NormalizeAll` of the flattened pages: the events up to the first failure, and that failure |
| EventStream.StreamInPageOrder | cjl.py:69-72 | without a failure, the event at envelope `j` of page `i`'s place is that envelope normalized: page order, then order within a page |
| Ordering.Insert | cjl.py:125 | insertion adds exactly one event and keeps the multiset of the others |
| Ordering.SortByTimestamp | cjl.py:125 | the sort result is a permutation of the events |
| Ordering.InsertSorted | cjl.py:125 | inserting into an ascending list keeps it ascending |
| Ordering.SortSorted | cjl.py:125 | the sort result ascends by timestamp |
| Ordering.InsertWithKey | cjl.py:125 | an inserted event goes before every event with the same timestamp |
| Ordering.SortStable | cjl.py:125 | the sort is stable: the events of each timestamp keep their relative order |
| Ordering.ForceOrder | cjl.py:124-125 | the sort fails with a KeyError on `timestamp` exactly when some event has no `timestamp`, and otherwise returns the stable sort |
| Ordering.StreamTimestampsAreUtc | cjl.py:54-56 | every `timestamp` of a normalized event is a UTC date-time, so the events are comparable |
| OutputFormatter.FieldTexts | cjl.py:127-129 | one value per field, in field order; `''` for a field the event lacks, the `str` of its value otherwise |
| OutputFormatter.ToText | cjl.py:128 | `str` of a text is the text itself, and `str` of an integer starts with a minus sign exactly when it is negative |
| OutputFormatter.FormatLine | cjl.py:127-130 | the tab-joined line: when no value holds a tab, it splits back at tabs into exactly the values and holds one tab fewer than there are fields |
| OutputFormatter.FormatLines | cjl.py:126-130 | one line per event, in order |
| OutputFormatter.MissingFieldEmpty | cjl.py:128 | a field the event lacks shows as an empty column |
| OutputFormatter.NumberText | cjl.py:128 | an integer prints as its decimal digits (with a minus sign when negative), which read back as the number |
| Cli.Kwargs | cjl.py:112-118 | the keyword arguments before filtering: all five keys, the log group and `interleaved` always set, start, end and filter set exactly when given, with their values |
| Cli.DropNone | cjl.py:119 | the request keeps exactly the entries whose value is not `None`, with their values |
| Cli.BuildRequest | cjl.py:112-119 | the request fails exactly when the start or end time fails, with the start's error first; otherwise it always holds the log group and `interleaved`, holds `startTime`, `endTime` and `filterPattern` exactly when those arguments are non-empty, with the parsed and translated values, and holds nothing else |
| Cli.Print | cjl.py:123-130 | the output of a run: at most one line per envelope, and with force-order a failure prints nothing |
| Cli.Command | cjl.py:107-130 | the whole command: an unparseable start or end time ends it with no lines and a time error, whatever the service would have returned |
| Cli.FormatEach | cjl.py:126-130 | the loop produces one formatted line per event, in order |
| Cli.PrintEvents | cjl.py:123-130 | the output stage produces exactly the lines and error of `Print` |
| Cli.Run | cjl.py:107-130 | the command produces exactly the lines and error of `Command` |
| Cli.PrintedPrefix | cjl.py:123-130 | without force-order, line `i` is envelope `i` normalized and formatted; an error comes from the envelope right after the last line printed, and without an error every envelope is printed |
| Cli.ForcedSorted | cjl.py:124-130 | with force-order and no failure, the lines are those of a stable, ascending-by-timestamp permutation of all the events |
| Cli.ForcedNeedsTimestamps | cjl.py:125 | with force-order, one event without a message `timestamp` makes the run end with a KeyError and no lines |

## Left out

- The CloudWatch client and paginator (cjl.py:109-121) are network I/O. They are the
  parameter `fetch`, which gives the pages for a request. A page is modelled as its
  list of envelopes; the `page['events']` lookup is not modelled.
- docopt (cjl.py:76-106) is argument parsing. `Cli.Arguments` is what it returns,
  with the `6h` start default already filled in. The `--raw` flag is never read by
  the code, and `--help` and the version are not modelled.
- `print` (cjl.py:130) is output I/O. The model produces the printed lines. Without
  force-order, fetching, normalizing and printing interleave in time; the model gives
  the same lines and the same final error, but not the interleaving.
- `json.loads` is the `decode` parameter. JSON numbers are integers in the model:
  floats are not modelled, so `str` of a float and a fractional `aws.timestamp` are
  not covered.
- `dateutil.parser.parse` and `replace(tzinfo=pytz.UTC)` are the `parseIso`
  parameter. A date-time is its epoch millisecond; the date grammar and sub-millisecond
  precision are not modelled.
- `datetime.fromtimestamp` (cjl.py:63-65) is not computed. `aws.timestamp_py` is
  `LocalTime(ms)`, which records the epoch millisecond it was made from. The local zone,
  the float division by 1000, and the platform's range errors for huge values are
  not modelled.
- `str` of a date-time, a list or a dictionary is the `show` parameter.
- Python dictionaries keep insertion order; maps in the model do not. The columns
  follow the field list. Only `str` of a nested JSON object depends on key order, and
  the model does not keep that order: `Obj` is an unordered map, so `show` cannot
  reproduce it, and two messages that differ only in the key order of a nested object
  print the same in the model but differently in the source.
- `ParseEvent` returns the envelope as it leaves it (`rest`). That the caller's dict
  is changed in place, and shared with the paginator's page, is not modelled.
- `\w` and `\d` are ASCII in the model. On text, Python also accepts non-ASCII
  letters and digits. `\s` is the full set `str.isspace` accepts.
- TimeResolver.ParseTime: the clock is an integer millisecond. The float arithmetic
  of `timestamp() * 1000` is not modelled. The model has no limit on the length of
  the digit run, while Python's `int` raises a ValueError for more than 4300 digits:
  a longer run that does not reach before year 1 (a zero-padded one such as 5000
  zeros followed by `1m`) succeeds in the model where the source raises.
- Ordering.ForceOrder: requires every present `timestamp` to be a UTC date-time, as a
  comparison with anything else would raise. `Ordering.StreamTimestampsAreUtc`
  proves this for every normalized stream. Sorting is by instant, as Python compares
  aware date-times.
- Cli.BuildRequest: the request uses the corrected resolver `TimeResolver.ParseTime`, not `parse_time` as written. It is what the program sends on a host whose zone is UTC: `TimeResolver.AsWrittenIsShifted` with offset 0. On other hosts the program's `startTime` and `endTime` are off by the local offset, as the Findings row says.
- Absolute ISO-8601 start and end times (cjl.py:89-95) appear only in the usage
  text; `parse_time` rejects them, and so does the model.
- setup.py is packaging metadata and is not part of this model.

## Findings

| source | as written | input that shows it | evidently intended | confidence | as-written member | corrected member |
|---|---|---|---|---|---|---|
| cjl.py:25-26 | `datetime.utcnow()` is a naive date-time holding UTC wall time, and `.timestamp()` reads a naive date-time as local time, so the bound is shifted by the machine's UTC offset | `--start 6h` on a machine at UTC-5 asks for events since now minus 1 hour | now minus 6 hours on every machine | high, not executed | TimeResolver.AsWrittenSixHoursWestOfUtc | TimeResolver.ParseTime |

=== FILE: cli.dfy ===
/** The command itself (`main`, cjl.py lines 106-130): the arguments give the request
    sent to the log service, and the events that come back are printed one line each,
    sorted by timestamp first when the force-order flag is set. Argument parsing is
    done by docopt and the request by the service client; both stay outside the
    model, as does printing: the model produces the printed lines. */
module Cli {
  import opened Values
  import opened Text
  import opened TimeResolver
  import opened FilterTranslator
  import opened FieldSelector
  import opened EventNormalizer
  import opened EventStream
  import opened Ordering
  import opened OutputFormatter

  /** The parsed command line. docopt has already put in the default start, `6h`. */
  datatype Arguments = Arguments(
    logGroup: string,
    start: Option<string>,
    end: Option<string>,
    filter: Option<string>,
    forceOrder: bool,
    output: Option<string>)

  /** A value of the request sent to the log service. */
  datatype Param = Text(text: string) | Millis(ms: int) | Flag(flag: bool)

  type Request = map<string, Param>

  const LogGroupName: string := "logGroupName"
  const StartTime: string := "startTime"
  const EndTime: string := "endTime"
  const FilterPattern: string := "filterPattern"
  const Interleaved: string := "interleaved"

  function MillisOf(t: Option<int>): Option<Param> {
    if t.Some? then Some(Millis(t.value)) else None
  }

  function TextOf(t: Option<string>): Option<Param> {
    if t.Some? then Some(Text(t.value)) else None
  }

  /** The request entries before the `None` ones are dropped: all five keys, the log
      group and `interleaved` always set, the others set exactly when given. */
  function Kwargs(logGroup: string, start: Option<int>, end: Option<int>, filter: Option<string>)
    : (r: map<string, Option<Param>>)
    ensures r.Keys == {LogGroupName, StartTime, EndTime, FilterPattern, Interleaved}
    ensures r[LogGroupName] == Some(Text(logGroup)) && r[Interleaved] == Some(Flag(true))
    ensures (r[StartTime].Some? <==> start.Some?) && (start.Some? ==> r[StartTime].value == Millis(start.value))
    ensures (r[EndTime].Some? <==> end.Some?) && (end.Some? ==> r[EndTime].value == Millis(end.value))
    ensures (r[FilterPattern].Some? <==> filter.Some?) && (filter.Some? ==> r[FilterPattern].value == Text(filter.value))
  {
    map[LogGroupName := Some(Text(logGroup)), StartTime := MillisOf(start), EndTime := MillisOf(end),
        FilterPattern := TextOf(filter), Interleaved := Some(Flag(true))]
  }

  /** The comprehension at line 119: exactly the entries whose value is not `None`. */
  function DropNone(kwargs: map<string, Option<Param>>): (r: Request)
    ensures forall k :: k in r <==> k in kwargs && kwargs[k].Some?
    ensures forall k :: k in r ==> kwargs[k] == Some(r[k])
  {
    map k | k in kwargs && kwargs[k].Some? :: kwargs[k].value
  }

  /** The request of lines 112-119. The start time is parsed before the end time, so
      its failure is the one reported when both fail. */
  function BuildRequest(args: Arguments, nowMs: int): (r: Result<Request, Error>)
    ensures r.Failure? <==> ParseTime(args.start, nowMs).Failure? || ParseTime(args.end, nowMs).Failure?
    ensures r.Failure? ==> r.error == if ParseTime(args.start, nowMs).Failure?
                                     then ParseTime(args.start, nowMs).error
                                     else ParseTime(args.end, nowMs).error
    ensures r.Success? ==> LogGroupName in r.value && r.value[LogGroupName] == Text(args.logGroup)
    ensures r.Success? ==> Interleaved in r.value && r.value[Interleaved] == Flag(true)
    ensures r.Success? ==> (StartTime in r.value <==> args.start.Some? && args.start.value != "")
    ensures r.Success? ==> (EndTime in r.value <==> args.end.Some? && args.end.value != "")
    ensures r.Success? ==> (FilterPattern in r.value <==> args.filter.Some? && args.filter.value != "")
    ensures r.Success? ==> r.value.Keys <= {LogGroupName, StartTime, EndTime, FilterPattern, Interleaved}
    ensures r.Success? && StartTime in r.value ==> r.value[StartTime] == Millis(ParseTime(args.start, nowMs).value.value)
    ensures r.Success? && EndTime in r.value ==> r.value[EndTime] == Millis(ParseTime(args.end, nowMs).value.value)
    ensures r.Success? && FilterPattern in r.value ==> r.value[FilterPattern] == Text(Translate(args.filter).value)
  {
    match ParseTime(args.start, nowMs)
    case Failure(e) => Failure(e)
    case Success(start) =>
      match ParseTime(args.end, nowMs)
      case Failure(e) => Failure(e)
      case Success(end) => Success(DropNone(Kwargs(args.logGroup, start, end, Translate(args.filter))))
  }

  /** What the command prints: the lines, and the error that ended it, if any. */
  datatype Outcome = Outcome(lines: seq<string>, error: Option<Error>)

  /** The output once the events have come back. Without force-order the events are
      printed as they are normalized, so a failing envelope ends the output after the
      lines of the events before it. With force-order every envelope is normalized
      and then sorted before anything is printed, so a failure prints nothing. */
  function Print(pages: seq<seq<Envelope>>, forceOrder: bool, fields: seq<string>,
                 decode: string -> Option<Value>, parseIso: string -> Option<int>, show: Value -> string)
    : (out: Outcome)
    ensures forceOrder && out.error.Some? ==> out.lines == []
    ensures |out.lines| <= |Flatten(pages)|
  {
    var stream := NormalizeAll(Flatten(pages), Normalizer(decode, parseIso));
    if !forceOrder then Outcome(FormatLines(stream.events, fields, show), stream.error)
    else if stream.error.Some? then Outcome([], stream.error)
    else
      StreamTimestampsAreUtc(Flatten(pages), decode, parseIso);
      match ForceOrder(stream.events)
      case Failure(e) => Outcome([], Some(e))
      case Success(sorted) => Outcome(FormatLines(sorted, fields, show), None)
  }

  /** The whole command: the request, then the pages `fetch` returns for it, then the
      output. A start or end time that cannot be parsed stops the command before the
      service is asked. */
  function Command(args: Arguments, nowMs: int, fetch: Request -> seq<seq<Envelope>>,
                   decode: string -> Option<Value>, parseIso: string -> Option<int>, show: Value -> string)
    : (out: Outcome)
    ensures ParseTime(args.start, nowMs).Failure? || ParseTime(args.end, nowMs).Failure? ==>
      out.lines == [] && out.error.Some? && out.error.value in {UnsupportedTime, OutOfRange}
  {
    var fields := LoadFields(args.output);
    match BuildRequest(args, nowMs)
    case Failure(e) => Outcome([], Some(e))
    case Success(request) => Print(fetch(request), args.forceOrder, fields, decode, parseIso, show)
  }

  /** The loop at lines 126-130: one line per event, in order. */
  method FormatEach(events: seq<Event>, fields: seq<string>, show: Value -> string) returns (lines: seq<string>)
    ensures lines == FormatLines(events, fields, show)
  {
    lines := [];
    for i := 0 to |events|
      invariant lines == FormatLines(events[..i], fields, show)
    {
      lines := lines + [FormatLine(events[i], fields, show)];
      assert events[..i + 1] == events[..i] + [events[i]];
    }
    assert events[..|events|] == events;
  }

  /** Lines 123-130: stream the events, sort them when asked to, print them. */
  method PrintEvents(pages: seq<seq<Envelope>>, forceOrder: bool, fields: seq<string>,
                     decode: string -> Option<Value>, parseIso: string -> Option<int>, show: Value -> string)
    returns (lines: seq<string>, error: Option<Error>)
    ensures Outcome(lines, error) == Print(pages, forceOrder, fields, decode, parseIso, show)
  {
    var events, failure := StreamEvents(pages, decode, parseIso);
    if !forceOrder {
      lines := FormatEach(events, fields, show);
      return lines, failure;
    }
    if failure.Some? {
      return [], failure;
    }
    StreamTimestampsAreUtc(Flatten(pages), decode, parseIso);
    var sorted := ForceOrder(events);
    if sorted.Failure? {
      return [], Some(sorted.error);
    }
    lines := FormatEach(sorted.value, fields, show);
    error := None;
  }

  /** `main` after argument parsing. */
  method Run(args: Arguments, nowMs: int, fetch: Request -> seq<seq<Envelope>>,
             decode: string -> Option<Value>, parseIso: string -> Option<int>, show: Value -> string)
    returns (lines: seq<string>, error: Option<Error>)
    ensures Outcome(lines, error) == Command(args, nowMs, fetch, decode, parseIso, show)
  {
    var fields := LoadFields(args.output);
    var request := BuildRequest(args, nowMs);
    if request.Failure? {
      return [], Some(request.error);
    }
    lines, error := PrintEvents(fetch(request.value), args.forceOrder, fields, decode, parseIso, show);
  }

  /** Without force-order, line `i` is envelope `i` normalized and formatted, and an
      error comes from the envelope right after the last line printed. */
  lemma PrintedPrefix(pages: seq<seq<Envelope>>, fields: seq<string>,
                      decode: string -> Option<Value>, parseIso: string -> Option<int>, show: Value -> string)
    ensures var out := Print(pages, false, fields, decode, parseIso, show);
      var envs := Flatten(pages);
      |out.lines| <= |envs|
      && (forall i :: 0 <= i < |out.lines| ==>
            Normalize(envs[i], decode, parseIso).Success?
            && out.lines[i] == FormatLine(Normalize(envs[i], decode, parseIso).value, fields, show))
      && (out.error.None? ==> |out.lines| == |envs|)
      && (out.error.Some? ==>
            |out.lines| < |envs| && Normalize(envs[|out.lines|], decode, parseIso) == Failure(out.error.value))
  {
    var envs := Flatten(pages);
    var stream := NormalizeAll(envs, Normalizer(decode, parseIso));
    forall i | 0 <= i < |stream.events|
      ensures Normalize(envs[i], decode, parseIso) == Success(stream.events[i])
    {
      assert Normalizer(decode, parseIso)(envs[i]) == Success(stream.events[i]);
    }
    if stream.error.Some? {
      assert Normalizer(decode, parseIso)(envs[|stream.events|]) == Failure(stream.error.value);
    }
  }

  /** With force-order and no failure, the lines are those of a rearrangement of all the
      events in ascending timestamp order, events with equal timestamps keeping their
      order. */
  lemma ForcedSorted(pages: seq<seq<Envelope>>, fields: seq<string>,
                     decode: string -> Option<Value>, parseIso: string -> Option<int>, show: Value -> string)
    requires Print(pages, true, fields, decode, parseIso, show).error.None?
    ensures var events := NormalizeAll(Flatten(pages), Normalizer(decode, parseIso)).events;
      |events| == |Flatten(pages)| && AllKeyed(events)
      && (exists sorted ::
            AllKeyed(sorted)
            && Print(pages, true, fields, decode, parseIso, show).lines == FormatLines(sorted, fields, show)
            && multiset(sorted) == multiset(events)
            && SortedByKey(sorted)
            && (forall k :: WithKey(sorted, k) == WithKey(events, k)))
  {
    var events := NormalizeAll(Flatten(pages), Normalizer(decode, parseIso)).events;
    StreamTimestampsAreUtc(Flatten(pages), decode, parseIso);
    var sorted := SortByTimestamp(events);
    SortSorted(events);
    forall k ensures WithKey(sorted, k) == WithKey(events, k) {
      SortStable(events, k);
    }
  }

  /** With force-order, an event without a message `timestamp` makes the sort fail, and
      then nothing is printed. */
  lemma ForcedNeedsTimestamps(pages: seq<seq<Envelope>>, fields: seq<string>,
                              decode: string -> Option<Value>, parseIso: string -> Option<int>, show: Value -> string, i: nat)
    requires var stream := NormalizeAll(Flatten(pages), Normalizer(decode, parseIso));
      stream.error.None? && i < |stream.events| && TimestampKey !in stream.events[i]
    ensures Print(pages, true, fields, decode, parseIso, show) == Outcome([], Some(KeyMissing(TimestampKey)))
  {
  }
}

=== FILE: event_normalizer.dfy ===
/** The event normalizer (`parse_event`, cjl.py lines 50-66). A log event envelope
    holds a JSON `message` beside CloudWatch's own keys (`timestamp`, `logStreamName`,
    ...). Normalizing decodes the message, turns its `timestamp` text into a UTC
    date-time, merges in every other envelope key renamed `aws.<key>` (the envelope
    wins on a clash) and adds `aws.timestamp_py`, the local date-time of
    `aws.timestamp`.

    The JSON decoder (`json.loads`) and the date parser (`dateutil.parser.parse`
    followed by `replace(tzinfo=UTC)`) are parameters: `decode` gives `None` for text
    that is not JSON, `parseIso` gives `None` for text it cannot read as a date and
    otherwise the epoch millisecond of the date read as UTC. */
module EventNormalizer {
  import opened Values

  const MessageKey: string := "message"
  const TimestampKey: string := "timestamp"
  const EnvelopePrefix: string := "aws."
  const AwsTimestamp: string := "aws.timestamp"
  const AwsTimestampPy: string := "aws.timestamp_py"

  /** A key of the form `aws.<rest>`. */
  predicate HasEnvelopePrefix(key: string) {
    |key| >= |EnvelopePrefix| && key[..|EnvelopePrefix|] == EnvelopePrefix
  }

  /** Which of the fixed keys are renamed envelope keys, and of which. */
  lemma FixedKeys()
    ensures HasEnvelopePrefix(AwsTimestamp) && AwsTimestamp[|EnvelopePrefix|..] == TimestampKey
    ensures HasEnvelopePrefix("aws.message") && "aws.message"[|EnvelopePrefix|..] == MessageKey
    ensures !HasEnvelopePrefix(TimestampKey) && AwsTimestamp != AwsTimestampPy
  {
    assert TimestampKey[0] != EnvelopePrefix[0];
  }

  /** Renaming is one-to-one. */
  lemma PrefixInjective(a: string, b: string)
    requires EnvelopePrefix + a == EnvelopePrefix + b
    ensures a == b
  {
    assert a == (EnvelopePrefix + a)[|EnvelopePrefix|..];
    assert b == (EnvelopePrefix + b)[|EnvelopePrefix|..];
  }

  /** The envelope keys renamed `aws.<key>`, the message left out (line 60, after the
      pop of line 53). */
  function Prefixed(env: Envelope): (r: map<string, Value>)
    ensures forall key :: key in r <==>
      HasEnvelopePrefix(key) && key[|EnvelopePrefix|..] in env && key[|EnvelopePrefix|..] != MessageKey
    ensures forall key :: key in r ==> HasEnvelopePrefix(key) && r[key] == env[key[|EnvelopePrefix|..]]
  {
    forall a, b | EnvelopePrefix + a == EnvelopePrefix + b ensures a == b {
      PrefixInjective(a, b);
    }
    var r := map k | k in env && k != MessageKey :: EnvelopePrefix + k := env[k];
    forall key | HasEnvelopePrefix(key) && key[|EnvelopePrefix|..] in env && key[|EnvelopePrefix|..] != MessageKey
      ensures key in r
    {
      assert EnvelopePrefix + key[|EnvelopePrefix|..] == key;
    }
    forall key | key in r
      ensures HasEnvelopePrefix(key) && key[|EnvelopePrefix|..] in env && r[key] == env[key[|EnvelopePrefix|..]]
    {
      var k :| k in env && k != MessageKey && key == EnvelopePrefix + k;
      assert key[|EnvelopePrefix|..] == k;
    }
    r
  }

  /** The renamed keys do not depend on the envelope's message. */
  lemma PrefixedIgnoresMessage(env: Envelope)
    ensures Prefixed(env - {MessageKey}) == Prefixed(env)
  {
  }

  /** Lines 54-56: a `timestamp` in the message must be text the date parser reads;
      it is replaced by the UTC date-time. A message without one is left alone. */
  function ResolveTimestamp(fields: map<string, Value>, parseIso: string -> Option<int>)
    : (r: Result<map<string, Value>, Error>)
    ensures r.Success? ==> r.value.Keys == fields.Keys
    ensures r.Success? ==> forall k :: k in fields && k != TimestampKey ==> r.value[k] == fields[k]
    ensures TimestampKey !in fields ==> r == Success(fields)
    ensures r.Failure? ==> TimestampKey in fields && (r.error == WrongType || r.error == BadDate)
    ensures r.Success? && TimestampKey in fields ==>
      fields[TimestampKey].Str? && parseIso(fields[TimestampKey].s).Some?
      && r.value[TimestampKey] == UtcTime(parseIso(fields[TimestampKey].s).value)
  {
    if TimestampKey !in fields then Success(fields)
    else match fields[TimestampKey]
      case Str(text) =>
        (match parseIso(text)
         case None => Failure(BadDate)
         case Some(instant) => Success(fields[TimestampKey := UtcTime(instant)]))
      case _ => Failure(WrongType)
  }

  /** The epoch millisecond that `fromtimestamp(x / 1000)` reads: a number, or a
      boolean, which Python divides as 0 or 1; anything else is a TypeError. */
  function EpochMs(v: Value): (r: Option<int>)
    ensures r.Some? <==> v.Num? || v.Bool?
  {
    match v
    case Num(n) => Some(n)
    case Bool(b) => Some(if b then 1 else 0)
    case _ => None
  }

  /** Line 51: the envelope's message text, decoded. */
  function DecodeMessage(env: Envelope, decode: string -> Option<Value>): (r: Result<Value, Error>)
    ensures r.Failure? ==> r.error in {KeyMissing(MessageKey), WrongType, NotJson}
  {
    if MessageKey !in env then Failure(KeyMissing(MessageKey))
    else if !env[MessageKey].Str? then Failure(WrongType)
    else match decode(env[MessageKey].s)
      case None => Failure(NotJson)
      case Some(decoded) => Success(decoded)
  }

  /** Lines 63-65: `aws.timestamp_py` added to the merged event. */
  function AddLocalTime(merged: map<string, Value>): (r: Result<Event, Error>)
    ensures r.Success? <==> AwsTimestamp in merged && EpochMs(merged[AwsTimestamp]).Some?
    ensures r.Success? ==> r.value == merged[AwsTimestampPy := LocalTime(EpochMs(merged[AwsTimestamp]).value)]
    ensures r.Failure? ==> r.error == if AwsTimestamp in merged then WrongType else KeyMissing(AwsTimestamp)
  {
    if AwsTimestamp !in merged then Failure(KeyMissing(AwsTimestamp))
    else match EpochMs(merged[AwsTimestamp])
      case None => Failure(WrongType)
      case Some(ms) => Success(merged[AwsTimestampPy := LocalTime(ms)])
  }

  /** What `parse_event` returns for an envelope, or the exception it raises, in the
      order the source meets them. The exceptions are a KeyError on `message` or on
      `aws.timestamp`, a TypeError, a JSON decode error or a date parser error; an
      event always carries `aws.timestamp` and `aws.timestamp_py`. */
  function Normalize(env: Envelope, decode: string -> Option<Value>, parseIso: string -> Option<int>)
    : (r: Result<Event, Error>)
    ensures r.Failure? ==> r.error in {KeyMissing(MessageKey), KeyMissing(AwsTimestamp), WrongType, NotJson, BadDate}
    ensures r.Success? ==> AwsTimestamp in r.value && AwsTimestampPy in r.value
  {
    match DecodeMessage(env, decode)
    case Failure(e) => Failure(e)
    case Success(decoded) =>
      if !decoded.Obj? then Failure(WrongType)
      else match ResolveTimestamp(decoded.fields, parseIso)
        case Failure(e) => Failure(e)
        case Success(fields) => AddLocalTime(fields + Prefixed(env))
  }

  /** The envelope as `parse_event` leaves it: once the message has been decoded, it
      is popped from the envelope (lines 51 and 53). */
  function EnvelopeAfter(env: Envelope, decode: string -> Option<Value>): Envelope {
    if MessageKey in env && env[MessageKey].Str? && decode(env[MessageKey].s).Some? then env - {MessageKey}
    else env
  }

  /** `parse_event`, step by step on the envelope; `rest` is the envelope after the call. */
  method ParseEvent(env: Envelope, decode: string -> Option<Value>, parseIso: string -> Option<int>)
    returns (r: Result<Event, Error>, rest: Envelope)
    ensures r == Normalize(env, decode, parseIso)
    ensures rest == EnvelopeAfter(env, decode)
  {
    var event := env;
    if MessageKey !in event {
      return Failure(KeyMissing(MessageKey)), event;
    }
    if !event[MessageKey].Str? {
      return Failure(WrongType), event;
    }
    var decoded := decode(event[MessageKey].s);
    if decoded.None? {
      return Failure(NotJson), event;
    }
    event := event[MessageKey := decoded.value];
    var output := event[MessageKey];
    event := event - {MessageKey};
    rest := event;
    assert event == env - {MessageKey};
    PrefixedIgnoresMessage(env);
    if !output.Obj? {
      return Failure(WrongType), rest;
    }
    var fields := output.fields;
    if TimestampKey in fields {
      if !fields[TimestampKey].Str? {
        return Failure(WrongType), rest;
      }
      var instant := parseIso(fields[TimestampKey].s);
      if instant.None? {
        return Failure(BadDate), rest;
      }
      fields := fields[TimestampKey := UtcTime(instant.value)];
    }
    fields := fields + Prefixed(event);
    if AwsTimestamp !in fields {
      return Failure(KeyMissing(AwsTimestamp)), rest;
    }
    var ms := EpochMs(fields[AwsTimestamp]);
    if ms.None? {
      return Failure(WrongType), rest;
    }
    fields := fields[AwsTimestampPy := LocalTime(ms.value)];
    r := Success(fields);
  }

  // ---------------------------------------------------------------------------
  // What a normalized event holds.

  /** The decoded message object of an envelope, when there is one. */
  function MessageFields(env: Envelope, decode: string -> Option<Value>): Option<map<string, Value>> {
    if MessageKey in env && env[MessageKey].Str? && decode(env[MessageKey].s).Some?
       && decode(env[MessageKey].s).value.Obj?
    then Some(decode(env[MessageKey].s).value.fields)
    else None
  }

  /** The keys of a normalized event: the message's own keys, every envelope key but
      the message as `aws.<key>`, and `aws.timestamp_py`. */
  lemma NormalizeKeys(env: Envelope, decode: string -> Option<Value>, parseIso: string -> Option<int>, key: string)
    requires Normalize(env, decode, parseIso).Success?
    ensures MessageFields(env, decode).Some?
    ensures var fields := MessageFields(env, decode).value;
      key in Normalize(env, decode, parseIso).value <==>
        || key in fields
        || (HasEnvelopePrefix(key) && key[|EnvelopePrefix|..] in env && key[|EnvelopePrefix|..] != MessageKey)
        || key == AwsTimestampPy
  {
  }

  /** Every envelope key but the message reaches the event as `aws.<key>` with its
      value, overriding a message key of that name; only `timestamp_py` is in turn
      overridden by the local date-time. */
  lemma EnvelopeWins(env: Envelope, decode: string -> Option<Value>, parseIso: string -> Option<int>, k: string)
    requires Normalize(env, decode, parseIso).Success?
    requires k in env && k != MessageKey && EnvelopePrefix + k != AwsTimestampPy
    ensures Normalize(env, decode, parseIso).value[EnvelopePrefix + k] == env[k]
  {
    var key := EnvelopePrefix + k;
    assert key[|EnvelopePrefix|..] == k;
  }

  /** A message key that no envelope key is renamed to keeps its value, except that a
      `timestamp` becomes the UTC date-time read from its text. */
  lemma MessageKeysKept(env: Envelope, decode: string -> Option<Value>, parseIso: string -> Option<int>, key: string)
    requires Normalize(env, decode, parseIso).Success?
    requires MessageFields(env, decode).Some? && key in MessageFields(env, decode).value
    requires key !in Prefixed(env) && key != AwsTimestampPy
    ensures var fields := MessageFields(env, decode).value; var event := Normalize(env, decode, parseIso).value;
      if key == TimestampKey then
        fields[key].Str? && parseIso(fields[key].s).Some? && event[key] == UtcTime(parseIso(fields[key].s).value)
      else event[key] == fields[key]
  {
  }

  /** A successful normalization, taken apart into its stages. */
  lemma Unpack(env: Envelope, decode: string -> Option<Value>, parseIso: string -> Option<int>)
    requires Normalize(env, decode, parseIso).Success?
    ensures MessageFields(env, decode).Some?
    ensures ResolveTimestamp(MessageFields(env, decode).value, parseIso).Success?
    ensures AddLocalTime(ResolveTimestamp(MessageFields(env, decode).value, parseIso).value + Prefixed(env))
      == Normalize(env, decode, parseIso)
  {
  }

  /** The message's `timestamp` is in the event exactly when the message has one, and
      then it is always a UTC date-time. */
  lemma TimestampOnlyIfPresent(env: Envelope, decode: string -> Option<Value>, parseIso: string -> Option<int>)
    requires Normalize(env, decode, parseIso).Success?
    ensures MessageFields(env, decode).Some?
    ensures var event := Normalize(env, decode, parseIso).value;
      && (TimestampKey in event <==> TimestampKey in MessageFields(env, decode).value)
      && (TimestampKey in event ==> event[TimestampKey].UtcTime?)
  {
    Unpack(env, decode, parseIso);
    var fields := MessageFields(env, decode).value;
    var resolved := ResolveTimestamp(fields, parseIso).value;
    var merged := resolved + Prefixed(env);
    FixedKeys();
    assert TimestampKey !in Prefixed(env);
    assert Normalize(env, decode, parseIso).value
      == merged[AwsTimestampPy := LocalTime(EpochMs(merged[AwsTimestamp]).value)];
  }

  /** `aws.timestamp_py` is always there: the local date-time of `aws.timestamp`. */
  lemma LocalTimestampAdded(env: Envelope, decode: string -> Option<Value>, parseIso: string -> Option<int>)
    requires Normalize(env, decode, parseIso).Success?
    ensures var event := Normalize(env, decode, parseIso).value;
      && AwsTimestampPy in event && AwsTimestamp in event
      && event[AwsTimestampPy] == LocalTime(EpochMs(event[AwsTimestamp]).value)
  {
  }

  /** The envelope's `timestamp` becomes `aws.timestamp`, and the local date-time is
      taken from it. */
  lemma EnvelopeTimestampUsed(env: Envelope, decode: string -> Option<Value>, parseIso: string -> Option<int>)
    requires Normalize(env, decode, parseIso).Success?
    requires TimestampKey in env
    ensures var event := Normalize(env, decode, parseIso).value;
      && event[AwsTimestamp] == env[TimestampKey]
      && event[AwsTimestampPy] == LocalTime(EpochMs(env[TimestampKey]).value)
  {
    Unpack(env, decode, parseIso);
    var merged := ResolveTimestamp(MessageFields(env, decode).value, parseIso).value + Prefixed(env);
    FixedKeys();
    assert merged[AwsTimestamp] == env[TimestampKey];
  }

  /** Without a `timestamp` in the envelope the lookup of `aws.timestamp` fails, unless
      the message itself has a key of that name. */
  lemma MissingTimestampFails(env: Envelope, decode: string -> Option<Value>, parseIso: string -> Option<int>)
    requires MessageFields(env, decode).Some?
    requires TimestampKey !in env && AwsTimestamp !in MessageFields(env, decode).value
    ensures Normalize(env, decode, parseIso).Failure?
    ensures ResolveTimestamp(MessageFields(env, decode).value, parseIso).Success? ==>
      Normalize(env, decode, parseIso) == Failure(KeyMissing(AwsTimestamp))
  {
    FixedKeys();
    assert AwsTimestamp !in Prefixed(env);
  }

  /** Without a `timestamp` in the envelope, a message key literally named
      `aws.timestamp` is what the lookup of line 64 finds, and it reaches the event. */
  lemma MessageTimestampUsed(env: Envelope, decode: string -> Option<Value>, parseIso: string -> Option<int>)
    requires Normalize(env, decode, parseIso).Success?
    requires TimestampKey !in env
    ensures MessageFields(env, decode).Some?
    ensures var fields := MessageFields(env, decode).value; var event := Normalize(env, decode, parseIso).value;
      && AwsTimestamp in fields
      && event[AwsTimestamp] == fields[AwsTimestamp]
      && event[AwsTimestampPy] == LocalTime(EpochMs(fields[AwsTimestamp]).value)
  {
    Unpack(env, decode, parseIso);
    var fields := MessageFields(env, decode).value;
    var merged := ResolveTimestamp(fields, parseIso).value + Prefixed(env);
    FixedKeys();
    assert AwsTimestamp !in Prefixed(env);
    assert merged[AwsTimestamp] == fields[AwsTimestamp];
  }

  /** An `aws.message` key only comes from the message itself: the envelope's message
      is popped before the renaming. */
  lemma NoEnvelopeMessage(env: Envelope, decode: string -> Option<Value>, parseIso: string -> Option<int>)
    requires Normalize(env, decode, parseIso).Success?
    ensures MessageFields(env, decode).Some?
    ensures "aws.message" in Normalize(env, decode, parseIso).value <==> "aws.message" in MessageFields(env, decode).value
  {
    FixedKeys();
  }

  /** The failures in the order the source raises them. */
  lemma NormalizeFailures(env: Envelope, decode: string -> Option<Value>, parseIso: string -> Option<int>)
    ensures MessageKey !in env ==> Normalize(env, decode, parseIso) == Failure(KeyMissing(MessageKey))
    ensures MessageKey in env && !env[MessageKey].Str? ==> Normalize(env, decode, parseIso) == Failure(WrongType)
    ensures MessageKey in env && env[MessageKey].Str? && decode(env[MessageKey].s).None?
      ==> Normalize(env, decode, parseIso) == Failure(NotJson)
    ensures Normalize(env, decode, parseIso).Failure? && MessageFields(env, decode).Some?
      ==> Normalize(env, decode, parseIso).error in {WrongType, BadDate, KeyMissing(AwsTimestamp)}
  {
  }
}

=== FILE: event_stream.dfy ===
/** The event stream (`stream_events`, cjl.py lines 69-72): the pages the log service
    returns, each a list of event envelopes, are walked in order and every envelope
    is normalized. The stream stops at the first envelope that fails to normalize;
    the events before it have already been produced. */
module EventStream {
  import opened Values
  import opened EventNormalizer

  /** The envelopes of all pages: page order, then order within a page. */
  function Flatten(pages: seq<seq<Envelope>>): seq<Envelope> {
    if pages == [] then [] else Flatten(pages[..|pages| - 1]) + pages[|pages| - 1]
  }

  /** Where page `i` starts among the flattened envelopes. */
  function Offset(pages: seq<seq<Envelope>>, i: nat): nat
    requires i <= |pages|
  {
    |Flatten(pages[..i])|
  }

  lemma {:induction false} FlattenAppend(a: seq<seq<Envelope>>, b: seq<seq<Envelope>>)
    ensures Flatten(a + b) == Flatten(a) + Flatten(b)
    decreases |b|
  {
    if b == [] {
      assert a + b == a;
    } else {
      var last := |b| - 1;
      FlattenAppend(a, b[..last]);
      assert (a + b)[..|a + b| - 1] == a + b[..last];
      assert (a + b)[|a + b| - 1] == b[last];
      calc {
        Flatten(a + b);
        Flatten(a + b[..last]) + b[last];
        (Flatten(a) + Flatten(b[..last])) + b[last];
        Flatten(a) + (Flatten(b[..last]) + b[last]);
        Flatten(a) + Flatten(b);
      }
    }
  }

  /** Envelope `j` of page `i` is at `Offset(pages, i) + j` of the flattened stream, and
      the stream holds nothing else. */
  lemma FlattenIndex(pages: seq<seq<Envelope>>, i: nat, j: nat)
    requires i < |pages| && j < |pages[i]|
    ensures Offset(pages, i) + j < |Flatten(pages)|
    ensures Flatten(pages)[Offset(pages, i) + j] == pages[i][j]
  {
    FlattenAround(pages, i);
  }

  /** The length of the flattened stream is the sum of the page lengths. */
  function TotalSize(pages: seq<seq<Envelope>>): nat {
    if pages == [] then 0 else TotalSize(pages[..|pages| - 1]) + |pages[|pages| - 1]|
  }

  lemma {:induction false} FlattenSize(pages: seq<seq<Envelope>>)
    ensures |Flatten(pages)| == TotalSize(pages)
  {
    if pages != [] {
      FlattenSize(pages[..|pages| - 1]);
    }
  }

  /** The events produced, and the failure that stopped the stream, if any. */
  datatype Stream = Stream(events: seq<Event>, error: Option<Error>)

  /** Normalizing envelopes one after the other with `normalize` until one fails. The
      events are exactly the normalized envelopes before the first failure, in order;
      without a failure there is one event per envelope. */
  function NormalizeAll(envs: seq<Envelope>, normalize: Envelope -> Result<Event, Error>): (r: Stream)
    ensures |r.events| <= |envs|
    ensures forall i :: 0 <= i < |r.events| ==> normalize(envs[i]) == Success(r.events[i])
    ensures r.error.None? ==> |r.events| == |envs|
    ensures r.error.Some? ==> |r.events| < |envs| && normalize(envs[|r.events|]) == Failure(r.error.value)
  {
    if envs == [] then Stream([], None)
    else
      var prev := NormalizeAll(envs[..|envs| - 1], normalize);
      if prev.error.Some? then prev
      else match normalize(envs[|envs| - 1])
        case Failure(e) => Stream(prev.events, Some(e))
        case Success(event) => Stream(prev.events + [event], None)
  }

  /** `parse_event` as a function of the envelope. */
  function Normalizer(decode: string -> Option<Value>, parseIso: string -> Option<int>): Envelope -> Result<Event, Error> {
    env => Normalize(env, decode, parseIso)
  }

  /** Once the stream has failed, later envelopes change nothing: they are never read. */
  lemma {:induction false} NormalizeAllStops(a: seq<Envelope>, b: seq<Envelope>, normalize: Envelope -> Result<Event, Error>)
    requires NormalizeAll(a, normalize).error.Some?
    ensures NormalizeAll(a + b, normalize) == NormalizeAll(a, normalize)
    decreases |b|
  {
    if b == [] {
      assert a + b == a;
    } else {
      var last := |b| - 1;
      NormalizeAllStops(a, b[..last], normalize);
      assert (a + b)[..|a + b| - 1] == a + b[..last];
    }
  }

  /** One more envelope: the stream so far, extended by what `normalize` makes of it
      unless the stream has already failed. */
  lemma NormalizeAllSnoc(envs: seq<Envelope>, env: Envelope, normalize: Envelope -> Result<Event, Error>)
    ensures var prev := NormalizeAll(envs, normalize);
      NormalizeAll(envs + [env], normalize)
        == if prev.error.Some? then prev
           else match normalize(env)
             case Failure(e) => Stream(prev.events, Some(e))
             case Success(event) => Stream(prev.events + [event], None)
  {
    assert (envs + [env])[..|envs|] == envs;
  }

  /** `stream_events` consumed to the end or to its first failure. */
  method StreamEvents(pages: seq<seq<Envelope>>, decode: string -> Option<Value>, parseIso: string -> Option<int>)
    returns (events: seq<Event>, error: Option<Error>)
    ensures Stream(events, error) == NormalizeAll(Flatten(pages), Normalizer(decode, parseIso))
  {
    events := [];
    var i := 0;
    while i < |pages|
      invariant 0 <= i <= |pages|
      invariant Stream(events, None) == NormalizeAll(Flatten(pages[..i]), Normalizer(decode, parseIso))
    {
      events, error := StreamPage(Flatten(pages[..i]), events, pages[i], decode, parseIso);
      FlattenPrefix(pages, i);
      if error.Some? {
        StopsAfterPage(pages, i + 1, Normalizer(decode, parseIso));
        return;
      }
      i := i + 1;
    }
    assert pages[..i] == pages;
    error := None;
  }

  /** The first `i + 1` pages are the first `i` pages and then page `i`. */
  lemma FlattenPrefix(pages: seq<seq<Envelope>>, i: nat)
    requires i < |pages|
    ensures Flatten(pages[..i + 1]) == Flatten(pages[..i]) + pages[i]
  {
    assert pages[..i + 1][..i] == pages[..i];
  }

  /** The inner loop of `stream_events`: the envelopes of one page, after the envelopes
      `done` of the earlier pages have given `events`. */
  method StreamPage(done: seq<Envelope>, events: seq<Event>, page: seq<Envelope>,
                    decode: string -> Option<Value>, parseIso: string -> Option<int>)
    returns (out: seq<Event>, error: Option<Error>)
    requires Stream(events, None) == NormalizeAll(done, Normalizer(decode, parseIso))
    ensures Stream(out, error) == NormalizeAll(done + page, Normalizer(decode, parseIso))
  {
    var normalize := Normalizer(decode, parseIso);
    out := events;
    var j := 0;
    while j < |page|
      invariant 0 <= j <= |page|
      invariant Stream(out, None) == NormalizeAll(done + page[..j], normalize)
    {
      var r, _ := ParseEvent(page[j], decode, parseIso);
      NormalizeAllSnoc(done + page[..j], page[j], normalize);
      SnocSlice(done, page, j);
      if r.Failure? {
        StopsWithinPage(done, page, j + 1, normalize);
        return out, Some(r.error);
      }
      out := out + [r.value];
      j := j + 1;
    }
    assert page[..j] == page;
    error := None;
  }

  lemma SnocSlice<T>(a: seq<T>, x: seq<T>, j: nat)
    requires j < |x|
    ensures (a + x[..j]) + [x[j]] == a + x[..j + 1]
  {
    assert x[..j + 1] == x[..j] + [x[j]];
  }

  lemma SplitAt<T>(s: seq<T>, i: nat)
    requires i <= |s|
    ensures s[..i] + s[i..] == s
  {
  }

  lemma SplitAround<T>(s: seq<T>, i: nat)
    requires i < |s|
    ensures s == s[..i] + ([s[i]] + s[i + 1..])
  {
    assert s[i..] == [s[i]] + s[i + 1..];
    SplitAt(s, i);
  }

  /** A failure within a page ends the stream of that page. */
  lemma StopsWithinPage(done: seq<Envelope>, page: seq<Envelope>, j: nat, normalize: Envelope -> Result<Event, Error>)
    requires j <= |page|
    requires NormalizeAll(done + page[..j], normalize).error.Some?
    ensures NormalizeAll(done + page, normalize) == NormalizeAll(done + page[..j], normalize)
  {
    SplitAt(page, j);
    assert (done + page[..j]) + page[j..] == done + page;
    NormalizeAllStops(done + page[..j], page[j..], normalize);
  }

  /** A failure within the first `i` pages ends the whole stream. */
  lemma StopsAfterPage(pages: seq<seq<Envelope>>, i: nat, normalize: Envelope -> Result<Event, Error>)
    requires i <= |pages|
    requires NormalizeAll(Flatten(pages[..i]), normalize).error.Some?
    ensures NormalizeAll(Flatten(pages), normalize) == NormalizeAll(Flatten(pages[..i]), normalize)
  {
    var pre, post := pages[..i], pages[i..];
    SplitAt(pages, i);
    FlattenAppend(pre, post);
    NormalizeAllStops(Flatten(pre), Flatten(post), normalize);
  }

  /** The flattened pages around page `i`. */
  lemma FlattenAround(pages: seq<seq<Envelope>>, i: nat)
    requires i < |pages|
    ensures Flatten(pages) == Flatten(pages[..i]) + (pages[i] + Flatten(pages[i + 1..]))
  {
    var pre, page, post := pages[..i], pages[i], pages[i + 1..];
    SplitAround(pages, i);
    FlattenSingle(page);
    FlattenAppend([page], post);
    FlattenAppend(pre, [page] + post);
  }

  lemma FlattenSingle(page: seq<Envelope>)
    ensures Flatten([page]) == page
  {
    assert [page][..0] == [];
  }

  /** Without a failure, the event at the place of envelope `j` of page `i` is that
      envelope, normalized: one event per envelope, in page order and then in order
      within the page. */
  lemma StreamInPageOrder(pages: seq<seq<Envelope>>, normalize: Envelope -> Result<Event, Error>, i: nat, j: nat)
    requires i < |pages| && j < |pages[i]|
    requires NormalizeAll(Flatten(pages), normalize).error.None?
    ensures var events := NormalizeAll(Flatten(pages), normalize).events;
      Offset(pages, i) + j < |events| && normalize(pages[i][j]) == Success(events[Offset(pages, i) + j])
  {
    FlattenIndex(pages, i, j);
  }
}

=== FILE: field_selector.dfy ===
/** The field selector (`load_fields`, cjl.py lines 44-47): the output fields are a
    comma-separated list, with a default list when none (or an empty one) is given. */
module FieldSelector {
  import opened Values
  import opened Text

  /** The default field list, as the text the source splits. */
  const DefaultFieldsText: string := "aws.timestamp_py,service,log_type,message"

  const DefaultFields: seq<string> := ["aws.timestamp_py", "service", "log_type", "message"]

  /** `load_fields`: a missing or empty argument stands for the default list; the text
      is split at every comma. */
  function LoadFields(fields: Option<string>): (r: seq<string>)
    ensures |r| >= 1
  {
    Split(if fields.None? || fields.value == "" then DefaultFieldsText else fields.value, ',')
  }

  /** Without an argument (or with an empty one) the fields are the four defaults. */
  lemma LoadFieldsDefault(fields: Option<string>)
    requires fields.None? || fields.value == ""
    ensures LoadFields(fields) == DefaultFields
  {
    DefaultFieldsJoined();
    forall i | 0 <= i < |DefaultFields| ensures ',' !in DefaultFields[i] {
    }
    LoadFieldsOfList(DefaultFields);
  }

  /** The default list, comma-joined, is the default text. */
  lemma DefaultFieldsJoined()
    ensures Join(DefaultFields, ',') == DefaultFieldsText
  {
    assert DefaultFields[1..][1..][1..] == ["message"];
    assert DefaultFields[1..][1..] == ["log_type", "message"];
    assert DefaultFields[1..] == ["service", "log_type", "message"];
  }

  /** Otherwise the fields are the pieces between the commas: joining them with commas
      gives back the argument, there is one more of them than there are commas, and
      none holds a comma. */
  lemma LoadFieldsPieces(fields: string)
    requires fields != ""
    ensures Join(LoadFields(Some(fields)), ',') == fields
    ensures |LoadFields(Some(fields))| == Count(fields, ',') + 1
    ensures forall i :: 0 <= i < |LoadFields(Some(fields))| ==> ',' !in LoadFields(Some(fields))[i]
  {
    JoinSplit(fields, ',');
    SplitPieces(fields, ',');
  }

  /** A list of comma-free names, written comma-separated, is read back as that list. */
  lemma LoadFieldsOfList(names: seq<string>)
    requires |names| >= 1 && forall i :: 0 <= i < |names| ==> ',' !in names[i]
    requires Join(names, ',') != ""
    ensures LoadFields(Some(Join(names, ','))) == names
  {
    assert LoadFields(Some(Join(names, ','))) == Split(Join(names, ','), ',');
    SplitJoin(names, ',');
  }
}

=== FILE: filter_translator.dfy ===
/** The filter translator (`parse_filter`, cjl.py lines 31-41). Every identifier that
    stands after the start of the text, a space or an opening parenthesis and before a
    comparison operator gets the field-access marker `$.`; the whole result is wrapped
    in `{ ` and ` }`. The source does this with one `re.sub` of the pattern
    `( |^|\()(\w+)\s?(=|!=|<|>|<=|>=| IS| NOT)` by `\1$.\2\3`; here the substitution is
    an explicit left-to-right scanner over non-overlapping matches. */
module FilterTranslator {
  import opened Values
  import opened Text

  predicate StartsWith(s: string, prefix: string) {
    |prefix| <= |s| && s[..|prefix|] == prefix
  }

  /** `s[i]` exists and is `c`. */
  predicate CharAt(s: string, i: int, c: char) {
    0 <= i < |s| && s[i] == c
  }

  // ---------------------------------------------------------------------------
  // One attempt of the pattern at one index.

  /** The operator alternatives of the pattern. */
  predicate IsOperator(op: string) {
    op == "=" || op == "!=" || op == "<" || op == ">" || op == "<=" || op == ">="
    || op == " IS" || op == " NOT"
  }

  /** The operator alternatives in the order the pattern tries them: the first one the
      text at `w` starts with is the one that matches. */
  function FirstAlternative(s: string, w: nat): Option<string>
    requires w <= |s|
  {
    if CharAt(s, w, '=') then Some("=")
    else if CharAt(s, w, '!') && CharAt(s, w + 1, '=') then Some("!=")
    else if CharAt(s, w, '<') then Some("<")
    else if CharAt(s, w, '>') then Some(">")
    else if CharAt(s, w, '<') && CharAt(s, w + 1, '=') then Some("<=")
    else if CharAt(s, w, '>') && CharAt(s, w + 1, '=') then Some(">=")
    else if CharAt(s, w, ' ') && CharAt(s, w + 1, 'I') && CharAt(s, w + 2, 'S') then Some(" IS")
    else if CharAt(s, w, ' ') && CharAt(s, w + 1, 'N') && CharAt(s, w + 2, 'O') && CharAt(s, w + 3, 'T') then
      Some(" NOT")
    else None
  }

  /** The operator the pattern matches at `w`, decided on the character there. */
  function OperatorAt(s: string, w: nat): (op: Option<string>)
    requires w <= |s|
    ensures op.Some? ==> IsOperator(op.value) && w + |op.value| <= |s|
  {
    if w == |s| then None
    else match s[w]
      case '=' => Some("=")
      case '!' => if CharAt(s, w + 1, '=') then Some("!=") else None
      case '<' => Some("<")
      case '>' => Some(">")
      case ' ' =>
        if CharAt(s, w + 1, 'I') && CharAt(s, w + 2, 'S') then Some(" IS")
        else if CharAt(s, w + 1, 'N') && CharAt(s, w + 2, 'O') && CharAt(s, w + 3, 'T') then Some(" NOT")
        else None
      case _ => None
  }

  /** Deciding on the first character picks the same alternative as trying them all
      in order; in particular `<=` and `>=` are never picked, `<` and `>` being tried first. */
  lemma OperatorAtIsFirstAlternative(s: string, w: nat)
    requires w <= |s|
    ensures OperatorAt(s, w) == FirstAlternative(s, w)
    ensures OperatorAt(s, w) != Some("<=") && OperatorAt(s, w) != Some(">=")
  {
  }

  /** The end of the run of word characters that starts at `i`. */
  function WordEnd(s: string, i: nat): (q: nat)
    requires i <= |s|
    ensures i <= q <= |s|
    ensures forall k :: i <= k < q ==> IsWordChar(s[k])
    ensures q < |s| ==> !IsWordChar(s[q])
    decreases |s| - i
  {
    if i < |s| && IsWordChar(s[i]) then WordEnd(s, i + 1) else i
  }

  /** One match of the pattern starting at `start`: the lead group is
      `s[start..identStart]`, the identifier `s[identStart..identEnd]`, then the
      operator `op`; the match ends just before `end`. */
  datatype Match = Match(start: nat, identStart: nat, identEnd: nat, op: string, end: nat)

  predicate WithinText(s: string, m: Match) {
    m.start <= m.identStart <= m.identEnd <= |s|
  }

  /** The text `\1$.\2\3` that replaces a match: the lead, the marker, the identifier
      and the operator. */
  function Replacement(s: string, m: Match): (r: string)
    requires WithinText(s, m)
    ensures |r| == m.identEnd - m.start + 2 + |m.op|
  {
    s[m.start..m.identStart] + "$." + s[m.identStart..m.identEnd] + m.op
  }

  /** Taking the marker `$.` out of a replacement again leaves the lead, the identifier
      and the operator, that is the match without the whitespace before its operator. */
  lemma ReplacementMarker(s: string, m: Match)
    requires WithinText(s, m)
    ensures var r := Replacement(s, m); var k := m.identStart - m.start;
      r[k..k + 2] == "$." && r[..k] + r[k + 2..] == s[m.start..m.identEnd] + m.op
  {
    var r := Replacement(s, m);
    var k := m.identStart - m.start;
    var lead := s[m.start..m.identStart];
    assert r == lead + ("$." + (s[m.identStart..m.identEnd] + m.op));
    assert r[..k] == lead;
    assert r[k + 2..] == s[m.identStart..m.identEnd] + m.op;
    assert s[m.start..m.identEnd] == lead + s[m.identStart..m.identEnd];
  }

  /** The identifier, optional whitespace and operator parts of a match whose
      identifier starts at `i`, the lead group being `s[p..i]`. The identifier is
      the whole word run; the whitespace is taken if the operator matches after it,
      else the operator is tried right after the identifier. */
  function IdentOpAt(s: string, p: nat, i: nat): (m: Option<Match>)
    requires p <= i <= |s|
    ensures m.Some? ==> i < m.value.end <= |s| && WithinText(s, m.value)
    ensures m.Some? ==> m.value.start == p && m.value.identEnd < m.value.end <= m.value.identEnd + 1 + |m.value.op|
  {
    var q := WordEnd(s, i);
    if q == i then None
    else if q < |s| && IsSpace(s[q]) && OperatorAt(s, q + 1).Some? then
      var op := OperatorAt(s, q + 1).value;
      Some(Match(p, i, q, op, q + 1 + |op|))
    else if OperatorAt(s, q).Some? then
      var op := OperatorAt(s, q).value;
      Some(Match(p, i, q, op, q + |op|))
    else None
  }

  /** The match the pattern makes when tried at index `p`. The lead alternatives are a
      space, the start of the text, an opening parenthesis; the start alternative only
      succeeds when `s[0]` is a word character, which a space or a parenthesis is not. */
  function MatchAt(s: string, p: nat): (m: Option<Match>)
    requires p <= |s|
    ensures m.Some? ==> p < m.value.end <= |s| && WithinText(s, m.value)
    ensures m.Some? ==> m.value.start == p && m.value.end <= m.value.identEnd + 1 + |m.value.op|
  {
    if p < |s| && (s[p] == ' ' || s[p] == '(') then IdentOpAt(s, p, p + 1)
    else if p == 0 then IdentOpAt(s, 0, 0)
    else None
  }

  // ---------------------------------------------------------------------------
  // The substitution: scanning left to right.

  /** What the scan does where a match starts: emit `text` and resume at `end`. */
  datatype Substitution = Substitution(text: string, end: nat)

  /** The substitution for the match at `k`, if there is one. Its text is longer than
      the stretch it replaces: the marker adds two characters, and at most one
      whitespace character is dropped. */
  function SubstitutionAt(s: string, k: nat): (r: Option<Substitution>)
    requires k <= |s|
    ensures r.Some? ==> k < r.value.end <= |s| && |r.value.text| > r.value.end - k
  {
    match MatchAt(s, k)
    case None => None
    case Some(m) => Some(Substitution(Replacement(s, m), m.end))
  }

  /** A table with the substitution at each index of `s`, `|s| + 1` in all. */
  predicate WellFormedTable(s: string, ms: seq<Option<Substitution>>) {
    && |ms| == |s| + 1
    && forall k :: 0 <= k < |ms| && ms[k].Some? ==> k < ms[k].value.end <= |s| && |ms[k].value.text| > ms[k].value.end - k
  }

  function SubstitutionTable(s: string): (ms: seq<Option<Substitution>>)
    ensures WellFormedTable(s, ms)
    ensures forall k :: 0 <= k <= |s| ==> ms[k] == SubstitutionAt(s, k)
  {
    seq(|s| + 1, k requires 0 <= k <= |s| => SubstitutionAt(s, k))
  }

  /** `re.sub` from index `p` on: where a match starts, its replacement is emitted and
      scanning resumes after it; elsewhere the character is copied. */
  function RewriteFrom(s: string, ms: seq<Option<Substitution>>, p: nat): (r: string)
    requires WellFormedTable(s, ms) && p <= |s|
    ensures |r| >= |s| - p
    decreases |s| - p
  {
    if p == |s| then ""
    else match ms[p]
      case Some(sub) => sub.text + RewriteFrom(s, ms, sub.end)
      case None => [s[p]] + RewriteFrom(s, ms, p + 1)
  }

  /** The substitution over the whole text. It never makes the text shorter. */
  function Rewrite(s: string): (r: string)
    ensures |r| >= |s|
  {
    RewriteFrom(s, SubstitutionTable(s), 0)
  }

  /** `parse_filter`: nothing for a missing or empty filter, else the rewritten text
      between `{ ` and ` }`. */
  function Translate(filter: Option<string>): (r: Option<string>)
    ensures r.None? <==> filter.None? || filter.value == ""
    ensures r.Some? ==> StartsWith(r.value, "{ ") && r.value[|r.value| - 2..] == " }"
  {
    if filter.None? || filter.value == "" then None
    else Some("{ " + Rewrite(filter.value) + " }")
  }

  // ---------------------------------------------------------------------------
  // The pattern, stated declaratively, and the scanner's agreement with it.

  /** `s[p..]` starts with an instance of the pattern whose lead group is `s[p..i]`,
      identifier `s[i..q]`, optional whitespace `s[q..w]` and operator `op` at `w`. */
  predicate Instance(s: string, p: nat, i: nat, q: nat, w: nat, op: string) {
    && p <= i < q <= w <= |s|
    && ((i == p + 1 && (s[p] == ' ' || s[p] == '(')) || i == p == 0)
    && (forall k :: i <= k < q ==> IsWordChar(s[k]))
    && (w == q || (w == q + 1 && IsSpace(s[q])))
    && IsOperator(op) && StartsWith(s[w..], op)
  }

  ghost predicate MatchesAt(s: string, p: nat) {
    exists i: nat, q: nat, w: nat, op: string :: Instance(s, p, i, q, w, op)
  }

  lemma WordNotSpace(c: char)
    requires IsWordChar(c)
    ensures !IsSpace(c)
  {
  }

  /** No operator starts with a word character. */
  lemma OperatorNotAtWord(s: string, w: nat, op: string)
    requires w < |s| && IsWordChar(s[w])
    requires IsOperator(op)
    ensures !StartsWith(s[w..], op)
  {
    if |op| <= |s| - w {
      assert s[w..][..|op|][0] == s[w];
      assert op[0] != s[w];
    }
  }

  /** The operator found is really there. */
  lemma OperatorAtSound(s: string, w: nat)
    requires w <= |s| && OperatorAt(s, w).Some?
    ensures StartsWith(s[w..], OperatorAt(s, w).value)
  {
    var op := OperatorAt(s, w).value;
    assert forall k :: 0 <= k < |op| ==> s[w..][..|op|][k] == s[w + k];
  }

  /** An operator alternative that the text starts with is found. */
  lemma OperatorAtComplete(s: string, w: nat, op: string)
    requires w <= |s| && IsOperator(op) && StartsWith(s[w..], op)
    ensures OperatorAt(s, w).Some?
  {
    assert s[w..][..|op|][0] == op[0];
  }

  /** The parts of a match found from identifier start `i`: the whole word run, then
      either a whitespace character and an operator, or (only when that fails) the
      operator right away. */
  lemma IdentOpAtParts(s: string, p: nat, i: nat)
    requires p <= i <= |s| && IdentOpAt(s, p, i).Some?
    ensures var m := IdentOpAt(s, p, i).value; var q := WordEnd(s, i);
      && m.start == p && m.identStart == i && m.identEnd == q && i < q
      && ((q < |s| && IsSpace(s[q]) && OperatorAt(s, q + 1) == Some(m.op) && m.end == q + 1 + |m.op|)
          || (!(q < |s| && IsSpace(s[q]) && OperatorAt(s, q + 1).Some?)
              && OperatorAt(s, q) == Some(m.op) && m.end == q + |m.op|))
    ensures var m := IdentOpAt(s, p, i).value; var w := m.end - |m.op|;
      && (w == m.identEnd || (w == m.identEnd + 1 && IsSpace(s[m.identEnd])))
      && w <= |s| && OperatorAt(s, w) == Some(m.op)
  {
  }

  /** Every match the scanner makes is an instance of the pattern, its identifier is the
      whole run of word characters (never a shorter part of it), and the whitespace
      before the operator is taken whenever the operator also matches after it. */
  lemma {:induction false} MatchAtSound(s: string, p: nat)
    requires p <= |s| && MatchAt(s, p).Some?
    ensures var m := MatchAt(s, p).value;
      exists i: nat, q: nat, w: nat :: Instance(s, p, i, q, w, m.op)
        && m.start == p && m.identStart == i && m.identEnd == q && m.end == w + |m.op|
        && (q == |s| || !IsWordChar(s[q]))
        && (w == q ==> !(q < |s| && IsSpace(s[q]) && OperatorAt(s, q + 1).Some?))
  {
    var m := MatchAt(s, p).value;
    var i: nat := if p < |s| && (s[p] == ' ' || s[p] == '(') then p + 1 else 0;
    assert IdentOpAt(s, p, i) == MatchAt(s, p);
    IdentOpAtParts(s, p, i);
    var q := m.identEnd;
    var w: nat := m.end - |m.op|;
    OperatorAtSound(s, w);
    assert Instance(s, p, i, q, w, m.op);
  }

  /** Where no instance of the pattern starts, the scanner finds no match. */
  lemma NoMatchWithoutInstance(s: string, k: nat)
    requires k <= |s| && !MatchesAt(s, k)
    ensures MatchAt(s, k).None?
  {
    if MatchAt(s, k).Some? {
      MatchAtSound(s, k);
    }
  }

  /** Wherever an instance of the pattern starts, the scanner finds a match. */
  lemma {:induction false} MatchAtComplete(s: string, p: nat, i: nat, q: nat, w: nat, op: string)
    requires p <= |s| && Instance(s, p, i, q, w, op)
    ensures MatchAt(s, p).Some?
  {
    assert IsWordChar(s[i]);
    if q < |s| && IsWordChar(s[q]) {
      WordNotSpace(s[q]);
      OperatorNotAtWord(s, q, op);
    }
    WordEndIs(s, i, q);
    OperatorAtComplete(s, w, op);
  }

  /** The word run from `i` ends at `q` when `s[i..q]` is all word characters and `q`
      is not one. */
  lemma {:induction false} WordEndIs(s: string, i: nat, q: nat)
    requires i <= q <= |s|
    requires forall k :: i <= k < q ==> IsWordChar(s[k])
    requires q < |s| ==> !IsWordChar(s[q])
    ensures WordEnd(s, i) == q
    decreases q - i
  {
    if i < q {
      WordEndIs(s, i + 1, q);
    }
  }

  // ---------------------------------------------------------------------------
  // What the substitution does to the text as a whole.

  lemma ConsSlice<T>(s: seq<T>, p: nat, j: nat, rest: seq<T>)
    requires p < j <= |s|
    ensures [s[p]] + (s[p + 1..j] + rest) == s[p..j] + rest
  {
    assert s[p..j] == [s[p]] + s[p + 1..j];
  }

  /** A stretch where no match starts is copied unchanged. */
  lemma {:induction false} RewriteCopies(s: string, ms: seq<Option<Substitution>>, p: nat, j: nat)
    requires WellFormedTable(s, ms) && p <= j <= |s|
    requires forall k :: p <= k < j ==> ms[k].None?
    ensures RewriteFrom(s, ms, p) == s[p..j] + RewriteFrom(s, ms, j)
    decreases j - p
  {
    if p < j {
      RewriteCopies(s, ms, p + 1, j);
      ConsSlice(s, p, j, RewriteFrom(s, ms, j));
    }
  }

  /** Text in which the pattern matches nowhere is left as it is. */
  lemma TextWithoutMatchUnchanged(s: string)
    requires forall k :: 0 <= k < |s| ==> !MatchesAt(s, k)
    ensures Rewrite(s) == s
  {
    var ms := SubstitutionTable(s);
    forall k | 0 <= k < |s| ensures ms[k].None? {
      NoMatchWithoutInstance(s, k);
    }
    RewriteCopies(s, ms, 0, |s|);
  }

  /** ... and the translated filter is that text between the braces. */
  lemma TranslateWithoutMatch(filter: string)
    requires filter != ""
    requires forall k :: 0 <= k < |filter| ==> !MatchesAt(filter, k)
    ensures Translate(Some(filter)) == Some("{ " + filter + " }")
  {
    TextWithoutMatchUnchanged(filter);
  }

  /** From `p` on, the output is longer than the text as soon as a substitution
      happens at or after `p`. */
  lemma {:induction false} RewriteFromGrows(s: string, ms: seq<Option<Substitution>>, p: nat, k: nat)
    requires WellFormedTable(s, ms) && p <= k < |s| && ms[k].Some?
    ensures |RewriteFrom(s, ms, p)| > |s| - p
    decreases k - p
  {
    if ms[p].None? {
      RewriteFromGrows(s, ms, p + 1, k);
    }
  }

  /** The substitution changes the text exactly when the pattern matches somewhere. */
  lemma RewriteChangesIff(s: string)
    ensures Rewrite(s) == s <==> forall k :: 0 <= k < |s| ==> !MatchesAt(s, k)
  {
    if exists k :: 0 <= k < |s| && MatchesAt(s, k) {
      var k :| 0 <= k < |s| && MatchesAt(s, k);
      var i, q, w, op :| Instance(s, k, i, q, w, op);
      MatchAtComplete(s, k, i, q, w, op);
      RewriteFromGrows(s, SubstitutionTable(s), 0, k);
    } else {
      TextWithoutMatchUnchanged(s);
    }
  }

  /** The rewrite from `p` up to the leftmost match at or after it: the text before
      that match copied, then its replacement, then the rewrite of the rest. */
  lemma RewriteAtLeftmost(s: string, p: nat, j: nat)
    requires p <= j <= |s|
    requires forall k :: p <= k < j ==> !MatchesAt(s, k)
    requires MatchesAt(s, j)
    ensures MatchAt(s, j).Some?
    ensures var ms := SubstitutionTable(s); var m := MatchAt(s, j).value;
      RewriteFrom(s, ms, p) == s[p..j] + Replacement(s, m) + RewriteFrom(s, ms, m.end)
  {
    var ms := SubstitutionTable(s);
    var i, q, w, op :| Instance(s, j, i, q, w, op);
    MatchAtComplete(s, j, i, q, w, op);
    forall k | p <= k < j ensures ms[k].None? {
      NoMatchWithoutInstance(s, k);
    }
    RewriteCopies(s, ms, p, j);
    assert j < |s|;
  }

  /** Choosing `<` (or `>`) where the text has `<=` (or `>=`) is invisible: the `=`
      left behind is copied right after the replacement, as if the longer
      alternative had matched. */
  lemma ShorterOperatorInvisible(s: string, p: nat)
    requires p <= |s| && MatchAt(s, p).Some?
    requires var m := MatchAt(s, p).value; (m.op == "<" || m.op == ">") && CharAt(s, m.end, '=')
    ensures var ms := SubstitutionTable(s); var m := MatchAt(s, p).value;
      RewriteFrom(s, ms, p)
        == s[m.start..m.identStart] + "$." + s[m.identStart..m.identEnd] + [m.op[0], '=']
           + RewriteFrom(s, ms, m.end + 1)
  {
    var ms := SubstitutionTable(s);
    var m := MatchAt(s, p).value;
    assert ms[p] == Some(Substitution(Replacement(s, m), m.end));
    assert ms[m.end].None?;
    var rest := RewriteFrom(s, ms, m.end + 1);
    assert RewriteFrom(s, ms, m.end) == [s[m.end]] + rest;
    assert RewriteFrom(s, ms, p) == Replacement(s, m) + RewriteFrom(s, ms, m.end);
    EqualsJoinsOperator(s[m.start..m.identStart], s[m.identStart..m.identEnd], m.op, s[m.end], rest);
  }

  lemma EqualsJoinsOperator(lead: string, ident: string, op: string, c: char, rest: string)
    requires |op| == 1 && c == '='
    ensures lead + "$." + ident + op + ([c] + rest) == lead + "$." + ident + [op[0], '='] + rest
  {
    assert op + [c] == [op[0], '='];
  }

  /** A whitespace character between the identifier and a symbolic operator is
      dropped from the output: the match swallows it, and the replacement holds
      only the lead, the marker, the identifier and the operator. */
  lemma WhitespaceBeforeOperatorDropped(s: string, p: nat)
    requires p <= |s| && MatchAt(s, p).Some?
    requires var q := MatchAt(s, p).value.identEnd;
      q < |s| && IsSpace(s[q]) && OperatorAt(s, q + 1).Some?
    ensures var m := MatchAt(s, p).value;
      && m.op == OperatorAt(s, m.identEnd + 1).value
      && m.end == m.identEnd + 1 + |m.op|
  {
    var i: nat := if p < |s| && (s[p] == ' ' || s[p] == '(') then p + 1 else 0;
    assert IdentOpAt(s, p, i) == MatchAt(s, p);
    IdentOpAtParts(s, p, i);
  }

  /** A space before `IS` or `NOT` is part of the operator: the match ends right after
      the keyword, and the replacement keeps the space. */
  lemma SpaceBeforeKeywordKept(s: string, p: nat)
    requires p <= |s| && MatchAt(s, p).Some?
    requires var q := MatchAt(s, p).value.identEnd;
      CharAt(s, q, ' ') && ((CharAt(s, q + 1, 'I') && CharAt(s, q + 2, 'S'))
        || (CharAt(s, q + 1, 'N') && CharAt(s, q + 2, 'O') && CharAt(s, q + 3, 'T')))
    ensures var m := MatchAt(s, p).value;
      && (m.op == " IS" || m.op == " NOT")
      && m.end == m.identEnd + |m.op|
      && Replacement(s, m) == s[m.start..m.identStart] + "$." + s[m.identStart..m.identEnd] + m.op
  {
    var i: nat := if p < |s| && (s[p] == ' ' || s[p] == '(') then p + 1 else 0;
    assert IdentOpAt(s, p, i) == MatchAt(s, p);
    IdentOpAtParts(s, p, i);
  }

  // ---------------------------------------------------------------------------
  // Examples.

  /** A non-empty filter translates to its rewrite between the braces. */
  lemma TranslateOf(filter: string, rewritten: string)
    requires filter != "" && Rewrite(filter) == rewritten
    ensures Translate(Some(filter)) == Some("{ " + rewritten + " }")
  {
  }

  lemma TranslateSingleComparison()
    ensures Translate(Some("a=1")) == Some("{ $.a=1 }")
  {
    assert "{ " + "$.a=1" + " }" == "{ $.a=1 }";
    var s := "a=1";
    var ms := SubstitutionTable(s);
    assert WordEnd(s, 0) == 1;
    var m := Match(0, 0, 1, "=", 2);
    assert MatchAt(s, 0) == Some(m);
    assert Replacement(s, m) == "$.a=";
    assert ms[0] == Some(Substitution("$.a=", m.end));
    assert ms[2].None?;
    RewriteCopies(s, ms, 2, 3);
    assert Rewrite(s) == "$.a=" + "1";
    TranslateOf(s, "$.a=1");
  }

  /** One whitespace character before the operator is dropped. */
  lemma TranslateDropsOneSpace()
    ensures Translate(Some("x = 1")) == Some("{ $.x= 1 }")
  {
    assert "{ " + "$.x= 1" + " }" == "{ $.x= 1 }";
    var s := "x = 1";
    var ms := SubstitutionTable(s);
    assert WordEnd(s, 0) == 1;
    var m := Match(0, 0, 1, "=", 3);
    assert MatchAt(s, 0) == Some(m);
    assert Replacement(s, m) == "$.x=";
    assert ms[0] == Some(Substitution("$.x=", m.end));
    assert forall k :: 3 <= k < 5 ==> ms[k].None?;
    RewriteCopies(s, ms, 3, 5);
    assert s[3..5] == " 1";
    assert Rewrite(s) == "$.x=" + " 1";
    TranslateOf(s, "$.x= 1");
  }
}

=== FILE: ordering.dfy ===
/** The force-order step (cjl.py line 125): every event is loaded, then the events are
    sorted by the message's `timestamp` with Python's `sorted`, which is stable. An
    event without a `timestamp` makes the key lookup raise a KeyError. */
module Ordering {
  import opened Values
  import opened EventNormalizer
  import opened EventStream

  /** The events the sort can order: each has a `timestamp`, a UTC date-time. */
  predicate HasSortKey(e: Event) {
    TimestampKey in e && e[TimestampKey].UtcTime?
  }

  function SortKey(e: Event): int
    requires HasSortKey(e)
  {
    e[TimestampKey].instant
  }

  predicate AllKeyed(events: seq<Event>) {
    forall i :: 0 <= i < |events| ==> HasSortKey(events[i])
  }

  /** Keys ascend. */
  predicate SortedByKey(events: seq<Event>)
    requires AllKeyed(events)
  {
    forall i, j :: 0 <= i < j < |events| ==> SortKey(events[i]) <= SortKey(events[j])
  }

  /** `e` placed before the first event whose key is not smaller. */
  function Insert(e: Event, sorted: seq<Event>): (r: seq<Event>)
    requires HasSortKey(e) && AllKeyed(sorted)
    ensures AllKeyed(r) && |r| == |sorted| + 1
    ensures multiset(r) == multiset(sorted) + multiset{e}
  {
    if sorted == [] then [e]
    else if SortKey(e) <= SortKey(sorted[0]) then [e] + sorted
    else
      var rest := Insert(e, sorted[1..]);
      assert sorted == [sorted[0]] + sorted[1..];
      [sorted[0]] + rest
  }

  /** The stable sort by timestamp, as an insertion sort from the back. */
  function SortByTimestamp(events: seq<Event>): (r: seq<Event>)
    requires AllKeyed(events)
    ensures AllKeyed(r) && |r| == |events|
    ensures multiset(r) == multiset(events)
  {
    if events == [] then []
    else
      assert events == [events[0]] + events[1..];
      Insert(events[0], SortByTimestamp(events[1..]))
  }

  /** Inserting into an ascending list keeps it ascending. */
  lemma {:induction false} InsertSorted(e: Event, sorted: seq<Event>)
    requires HasSortKey(e) && AllKeyed(sorted) && SortedByKey(sorted)
    ensures SortedByKey(Insert(e, sorted))
    ensures |sorted| > 0 ==> var r := Insert(e, sorted);
      SortKey(r[0]) == if SortKey(e) <= SortKey(sorted[0]) then SortKey(e) else SortKey(sorted[0])
  {
    if sorted == [] {
    } else if SortKey(e) <= SortKey(sorted[0]) {
      SortedCons(e, sorted);
    } else {
      var rest := Insert(e, sorted[1..]);
      InsertSorted(e, sorted[1..]);
      assert SortKey(sorted[0]) <= SortKey(rest[0]) by {
        if |sorted| > 1 {
          assert SortKey(sorted[0]) <= SortKey(sorted[1..][0]);
        }
      }
      SortedCons(sorted[0], rest);
    }
  }

  /** An event no later than the first of an ascending list, put in front of it. */
  lemma SortedCons(x: Event, s: seq<Event>)
    requires HasSortKey(x) && AllKeyed(s) && SortedByKey(s)
    requires s != [] ==> SortKey(x) <= SortKey(s[0])
    ensures AllKeyed([x] + s) && SortedByKey([x] + s)
  {
    var r := [x] + s;
    forall i, j | 0 <= i < j < |r| ensures SortKey(r[i]) <= SortKey(r[j]) {
      assert r[j] == s[j - 1];
      if i > 0 {
        assert r[i] == s[i - 1];
      }
    }
  }

  /** The sort's result ascends by timestamp. */
  lemma {:induction false} SortSorted(events: seq<Event>)
    requires AllKeyed(events)
    ensures SortedByKey(SortByTimestamp(events))
  {
    if events != [] {
      SortSorted(events[1..]);
      InsertSorted(events[0], SortByTimestamp(events[1..]));
    }
  }

  /** The events with timestamp `k`, in their order. */
  function WithKey(events: seq<Event>, k: int): seq<Event>
    requires AllKeyed(events)
  {
    if events == [] then []
    else Tagged(events[0], k) + WithKey(events[1..], k)
  }

  /** `e` alone when its timestamp is `k`, else nothing. */
  function Tagged(e: Event, k: int): seq<Event>
    requires HasSortKey(e)
  {
    if SortKey(e) == k then [e] else []
  }

  /** Inserting `e` puts it ahead of every event with the same timestamp. */
  lemma {:induction false} InsertWithKey(e: Event, sorted: seq<Event>, k: int)
    requires HasSortKey(e) && AllKeyed(sorted)
    ensures WithKey(Insert(e, sorted), k) == Tagged(e, k) + WithKey(sorted, k)
  {
    if sorted == [] {
      WithKeyCons(e, [], k);
      assert Insert(e, sorted) == [e] + [];
    } else if SortKey(e) <= SortKey(sorted[0]) {
      WithKeyCons(e, sorted, k);
    } else {
      var rest := Insert(e, sorted[1..]);
      InsertWithKey(e, sorted[1..], k);
      WithKeyCons(sorted[0], rest, k);
      WithKeyCons(sorted[0], sorted[1..], k);
      assert [sorted[0]] + sorted[1..] == sorted;
      if SortKey(e) == k {
        assert Tagged(sorted[0], k) == [];
      } else {
        assert Tagged(e, k) == [];
      }
    }
  }

  lemma WithKeyCons(x: Event, s: seq<Event>, k: int)
    requires HasSortKey(x) && AllKeyed(s)
    ensures AllKeyed([x] + s)
    ensures WithKey([x] + s, k) == Tagged(x, k) + WithKey(s, k)
  {
    assert ([x] + s)[1..] == s;
  }

  /** The sort is stable: the events of each timestamp keep their order. */
  lemma {:induction false} SortStable(events: seq<Event>, k: int)
    requires AllKeyed(events)
    ensures WithKey(SortByTimestamp(events), k) == WithKey(events, k)
  {
    if events != [] {
      SortStable(events[1..], k);
      InsertWithKey(events[0], SortByTimestamp(events[1..]), k);
    }
  }

  /** Every `timestamp` the events have is a UTC date-time. */
  predicate UtcTimestamps(events: seq<Event>) {
    forall i :: 0 <= i < |events| && TimestampKey in events[i] ==> events[i][TimestampKey].UtcTime?
  }

  /** `sorted(events, key=lambda event: event['timestamp'])`: a KeyError when some
      event has no `timestamp`, else the stable sort. The events come from the
      normalizer, whose timestamps are always UTC date-times. */
  function ForceOrder(events: seq<Event>): (r: Result<seq<Event>, Error>)
    requires UtcTimestamps(events)
    ensures r.Failure? <==> exists i :: 0 <= i < |events| && TimestampKey !in events[i]
    ensures r.Failure? ==> r.error == KeyMissing(TimestampKey)
    ensures r.Success? ==> AllKeyed(events) && r.value == SortByTimestamp(events)
  {
    if exists i :: 0 <= i < |events| && TimestampKey !in events[i] then Failure(KeyMissing(TimestampKey))
    else Success(SortByTimestamp(events))
  }

  /** Every normalized event's `timestamp`, when it has one, is a UTC date-time, so
      the stream can always be handed to the sort. */
  lemma StreamTimestampsAreUtc(envs: seq<Envelope>, decode: string -> Option<Value>, parseIso: string -> Option<int>)
    ensures UtcTimestamps(NormalizeAll(envs, Normalizer(decode, parseIso)).events)
  {
    var events: seq<Event> := NormalizeAll(envs, Normalizer(decode, parseIso)).events;
    forall i: int | 0 <= i < |events| && TimestampKey in events[i]
      ensures events[i][TimestampKey].UtcTime?
    {
      assert Normalizer(decode, parseIso)(envs[i]) == Success(events[i]);
      TimestampOnlyIfPresent(envs[i], decode, parseIso);
    }
  }
}

=== FILE: output_formatter.dfy ===
/** The line formatter (cjl.py lines 127-130): one line per event, holding the value of
    each selected field as Python's `str` writes it (empty for a field the event does
    not have), separated by tabs. How `str` writes a date-time, a list or a
    dictionary is a parameter, `show`. */
module OutputFormatter {
  import opened Values
  import opened Text

  const Tab: char := '\t'

  /** Python's `str` of a value: text as itself, integers in decimal, `None`, `True`
      and `False` by name, everything else as `show` writes it. */
  function ToText(v: Value, show: Value -> string): (t: string)
    ensures v.Str? ==> t == v.s
    ensures v.Num? ==> |t| >= 1 && (t[0] == '-' <==> v.n < 0)
  {
    match v
    case Str(s) => s
    case Num(n) => IntToString(n)
    case Null => "None"
    case Bool(b) => if b then "True" else "False"
    case _ => show(v)
  }

  /** `str(event.get(field, ''))`. */
  function FieldText(event: Event, field: string, show: Value -> string): string {
    if field in event then ToText(event[field], show) else ""
  }

  /** The values of the selected fields, in the order of the fields. */
  function FieldTexts(event: Event, fields: seq<string>, show: Value -> string): (vs: seq<string>)
    ensures |vs| == |fields|
    ensures forall i :: 0 <= i < |fields| && fields[i] !in event ==> vs[i] == ""
    ensures forall i :: 0 <= i < |fields| && fields[i] in event ==> vs[i] == ToText(event[fields[i]], show)
  {
    seq(|fields|, i requires 0 <= i < |fields| => FieldText(event, fields[i], show))
  }

  /** `'\t'.join(values)`. When no value holds a tab, the line splits back at its
      tabs into exactly the values, one per field, and holds one tab fewer than there
      are fields. */
  function FormatLine(event: Event, fields: seq<string>, show: Value -> string): (line: string)
    ensures |fields| >= 1 && TabFree(event, fields, show) ==>
      Split(line, Tab) == FieldTexts(event, fields, show) && Count(line, Tab) == |fields| - 1
  {
    var values := FieldTexts(event, fields, show);
    var line := Join(values, Tab);
    assert |fields| >= 1 && TabFree(event, fields, show) ==>
      Split(line, Tab) == values && Count(line, Tab) == |fields| - 1 by {
      if |fields| >= 1 && TabFree(event, fields, show) {
        SplitJoin(values, Tab);
        SplitPieces(line, Tab);
      }
    }
    line
  }

  /** The lines of several events, in order. */
  function FormatLines(events: seq<Event>, fields: seq<string>, show: Value -> string): (lines: seq<string>)
    ensures |lines| == |events|
    ensures forall i :: 0 <= i < |events| ==> lines[i] == FormatLine(events[i], fields, show)
  {
    seq(|events|, i requires 0 <= i < |events| => FormatLine(events[i], fields, show))
  }

  /** No selected value holds a tab. */
  predicate TabFree(event: Event, fields: seq<string>, show: Value -> string) {
    forall i :: 0 <= i < |fields| ==> Tab !in FieldTexts(event, fields, show)[i]
  }

  /** A field the event does not have shows as an empty column. */
  lemma MissingFieldEmpty(event: Event, fields: seq<string>, show: Value -> string, i: nat)
    requires |fields| >= 1 && TabFree(event, fields, show)
    requires i < |fields| && fields[i] !in event
    ensures |Split(FormatLine(event, fields, show), Tab)| == |fields|
    ensures Split(FormatLine(event, fields, show), Tab)[i] == ""
  {
  }

  /** Python writes the integers in decimal: reading the digits back gives the number. */
  lemma NumberText(n: int)
    ensures var t := ToText(Num(n), s => "");
      if n < 0 then t[0] == '-' && DigitsValue(t[1..]) == -n else DigitsValue(t) == n
  {
    var t := ToText(Num(n), s => "");
    if n < 0 {
      DigitsRoundTrip(-n);
      assert t[1..] == NatDigits(-n);
    } else {
      DigitsRoundTrip(n);
    }
  }
}

=== FILE: text.dfy ===
/** Text helpers shared by the pipeline: the character classes of Python's `re`
    module as the filter and time patterns use them, Python's `str.split` with a
    one-character separator and `str.join`, and decimal digit strings. */
module Text {

  /** `\d` restricted to the ASCII digits. */
  predicate IsDigit(c: char) {
    '0' <= c <= '9'
  }

  /** `\w` restricted to ASCII: letters, digits and the underscore. */
  predicate IsWordChar(c: char) {
    'a' <= c <= 'z' || 'A' <= c <= 'Z' || IsDigit(c) || c == '_'
  }

  /** `\s` on a text pattern: every character Python's `str.isspace` accepts. */
  predicate IsSpace(c: char) {
    c == ' ' || '\t' <= c <= '\r' || '\U{1c}' <= c <= '\U{1f}' || c == '\U{85}' || c == '\U{a0}'
    || c == '\U{1680}' || '\U{2000}' <= c <= '\U{200a}' || c == '\U{2028}' || c == '\U{2029}'
    || c == '\U{202f}' || c == '\U{205f}' || c == '\U{3000}'
  }

  /** Number of occurrences of `c` in `s`. */
  function Count(s: string, c: char): nat {
    if s == [] then 0 else (if s[0] == c then 1 else 0) + Count(s[1..], c)
  }

  /** `s.split(sep)`: the pieces between occurrences of `sep`, in order. */
  function Split(s: string, sep: char): (r: seq<string>)
    ensures |r| >= 1
  {
    if s == [] then [""]
    else
      var rest := Split(s[1..], sep);
      if s[0] == sep then [""] + rest
      else [[s[0]] + rest[0]] + rest[1..]
  }

  /** `sep.join(parts)`. */
  function Join(parts: seq<string>, sep: char): string {
    if parts == [] then ""
    else if |parts| == 1 then parts[0]
    else parts[0] + [sep] + Join(parts[1..], sep)
  }

  /** Joining the pieces of a split gives back the text that was split. */
  lemma {:induction false} JoinSplit(s: string, sep: char)
    ensures Join(Split(s, sep), sep) == s
  {
    if s != [] {
      var rest := Split(s[1..], sep);
      JoinSplit(s[1..], sep);
      if s[0] == sep {
        assert Split(s, sep) == [""] + rest;
      } else {
        var r := Split(s, sep);
        assert r == [[s[0]] + rest[0]] + rest[1..];
        if |rest| == 1 {
          assert Join(r, sep) == [s[0]] + rest[0];
        } else {
          assert r[1..] == rest[1..];
          assert Join(r, sep) == [s[0]] + rest[0] + [sep] + Join(rest[1..], sep);
          assert Join(rest, sep) == rest[0] + [sep] + Join(rest[1..], sep);
        }
      }
    }
  }

  /** There is one more piece than there are separators, and no piece holds one. */
  lemma {:induction false} SplitPieces(s: string, sep: char)
    ensures |Split(s, sep)| == Count(s, sep) + 1
    ensures forall i :: 0 <= i < |Split(s, sep)| ==> sep !in Split(s, sep)[i]
  {
    if s != [] {
      SplitPieces(s[1..], sep);
      var rest := Split(s[1..], sep);
      var r := Split(s, sep);
      if s[0] != sep {
        forall i | 0 <= i < |r| ensures sep !in r[i] {
          if i == 0 {
            assert r[0] == [s[0]] + rest[0];
          } else {
            assert r[i] == rest[i];
          }
        }
      }
    }
  }

  /** Splitting separator-free pieces joined by that separator recovers the pieces. */
  lemma {:induction false} SplitJoin(parts: seq<string>, sep: char)
    requires |parts| >= 1
    requires forall i :: 0 <= i < |parts| ==> sep !in parts[i]
    ensures Split(Join(parts, sep), sep) == parts
  {
    if |parts| == 1 {
      SplitFree(parts[0], sep);
    } else {
      SplitJoin(parts[1..], sep);
      SplitPrefix(parts[0], Join(parts[1..], sep), sep);
      assert [parts[0]] + parts[1..] == parts;
    }
  }

  /** A separator-free text splits into itself alone. */
  lemma {:induction false} SplitFree(s: string, sep: char)
    requires sep !in s
    ensures Split(s, sep) == [s]
  {
    if s != [] {
      SplitFree(s[1..], sep);
      assert [s[0]] + s[1..] == s;
    }
  }

  /** A separator-free head followed by a separator splits off as one piece. */
  lemma {:induction false} SplitPrefix(head: string, tail: string, sep: char)
    requires sep !in head
    ensures Split(head + [sep] + tail, sep) == [head] + Split(tail, sep)
  {
    if head == [] {
      assert head + [sep] + tail == [sep] + tail;
    } else {
      var s := head + [sep] + tail;
      assert s[1..] == head[1..] + [sep] + tail;
      SplitPrefix(head[1..], tail, sep);
      assert [head[0]] + head[1..] == head;
    }
  }

  /** The numeric value of a string of decimal digits. */
  function DigitsValue(ds: string): (n: nat)
    requires forall i :: 0 <= i < |ds| ==> IsDigit(ds[i])
  {
    if ds == [] then 0
    else
      assert IsDigit(ds[|ds| - 1]);
      DigitsValue(ds[..|ds| - 1]) * 10 + (ds[|ds| - 1] as int - '0' as int)
  }

  /** The decimal digits of `n`, without leading zeros (Python's `str` of an int). */
  function NatDigits(n: nat): (ds: string)
    ensures |ds| >= 1
    ensures forall i :: 0 <= i < |ds| ==> IsDigit(ds[i])
    ensures |ds| > 1 ==> ds[0] != '0'
  {
    if n < 10 then [('0' as int + n) as char]
    else NatDigits(n / 10) + [('0' as int + n % 10) as char]
  }

  /** Reading back the digits of a number gives the number. */
  lemma {:induction false} DigitsRoundTrip(n: nat)
    ensures DigitsValue(NatDigits(n)) == n
  {
    var ds := NatDigits(n);
    if n >= 10 {
      DigitsRoundTrip(n / 10);
      assert ds[..|ds| - 1] == NatDigits(n / 10);
    }
  }

  /** Python's `str` of an integer. */
  function IntToString(i: int): (t: string)
    ensures |t| >= 1
  {
    if i < 0 then "-" + NatDigits(-i) else NatDigits(i)
  }
}

=== FILE: time_resolver.dfy ===
/** The time resolver (`parse_time`, cjl.py lines 14-28): a relative duration such as
    `6h` becomes the epoch-millisecond instant that long before now. The wall clock is
    a parameter (`nowMs`, the current UTC instant in epoch milliseconds). */
module TimeResolver {
  import opened Values
  import opened Text

  const MinuteMs: nat := 60_000
  const HourMs: nat := 3_600_000
  const DayMs: nat := 86_400_000

  /** The earliest date-time Python can represent, 0001-01-01T00:00:00, in epoch milliseconds. */
  const MinDateTimeMs: int := -62_135_596_800_000

  predicate IsUnit(c: char) {
    c == 'm' || c == 'h' || c == 'd'
  }

  /** Milliseconds in one unit: m is a minute, h an hour, d a day. */
  function UnitMs(c: char): (ms: nat)
    requires IsUnit(c)
    ensures c == 'm' ==> ms == MinuteMs
    ensures c == 'h' ==> ms == HourMs
    ensures c == 'd' ==> ms == DayMs
  {
    if c == 'm' then MinuteMs else if c == 'h' then HourMs else DayMs
  }

  /** Length of the run of digits that `t` starts with. */
  function LeadingDigits(t: string): (k: nat)
    ensures k <= |t|
    ensures forall i :: 0 <= i < k ==> IsDigit(t[i])
    ensures k < |t| ==> !IsDigit(t[k])
  {
    if t == [] || !IsDigit(t[0]) then 0
    else
      var k := 1 + LeadingDigits(t[1..]);
      assert forall i :: 1 <= i < k ==> t[i] == t[1..][i - 1];
      k
  }

  /** A duration: so many units of `unitMs` milliseconds each. */
  datatype Duration = Duration(count: nat, unitMs: nat)

  /** What `re.match(r'(\d+)(m|h|d)', t)` recognises: the greedy digit run at the start
      of `t` and the unit letter right after it; whatever follows is not looked at. */
  function MatchDuration(t: string): (d: Option<Duration>)
    ensures d.Some? ==> StartsWithDuration(t)
    ensures d.Some? ==> d.value.unitMs == MinuteMs || d.value.unitMs == HourMs || d.value.unitMs == DayMs
  {
    var k := LeadingDigits(t);
    if 1 <= k < |t| && IsUnit(t[k]) then Some(Duration(DigitsValue(t[..k]), UnitMs(t[k])))
    else None
  }

  /** A duration is recognised exactly when `t` starts with one or more digits followed
      by a unit letter, cut at any point. */
  predicate StartsWithDuration(t: string) {
    exists k :: 1 <= k < |t| && IsUnit(t[k]) && forall i :: 0 <= i < k ==> IsDigit(t[i])
  }

  lemma MatchDurationIff(t: string)
    ensures MatchDuration(t).Some? <==> StartsWithDuration(t)
  {
    if StartsWithDuration(t) {
      var k :| 1 <= k < |t| && IsUnit(t[k]) && forall i :: 0 <= i < k ==> IsDigit(t[i]);
      var j := LeadingDigits(t);
      assert j < |t| ==> !IsDigit(t[j]);
      assert !IsDigit(t[k]);
    }
  }

  /** The corrected resolver: `None` for a missing or empty argument, a failure for
      text that does not start with a duration or that reaches before the first
      representable date-time, otherwise `nowMs` minus the duration. */
  function ParseTime(t: Option<string>, nowMs: int): (r: Result<Option<int>, Error>)
    ensures r == Success(None) <==> t == None || t.value == ""
    ensures r.Failure? ==> r.error == UnsupportedTime || r.error == OutOfRange
    ensures r.Success? && r.value.Some? ==> MinDateTimeMs <= r.value.value <= nowMs
  {
    if t.None? || t.value == "" then Success(None)
    else match MatchDuration(t.value)
      case None => Failure(UnsupportedTime)
      case Some(d) =>
        var bound := nowMs - d.count * d.unitMs;
        if bound < MinDateTimeMs then Failure(OutOfRange) else Success(Some(bound))
  }

  /** `parse_time` as the source writes it: `utcnow()` gives the UTC wall clock as a
      naive date-time and `.timestamp()` reads a naive date-time as LOCAL time, so the
      result is shifted by the local zone's offset from UTC (`localOffsetMs`, positive
      east of Greenwich, taken as constant over the interval). */
  function ParseTimeAsWritten(t: Option<string>, nowMs: int, localOffsetMs: int): (r: Result<Option<int>, Error>)
    ensures r == Success(None) <==> t == None || t.value == ""
    ensures r.Failure? ==> r.error == UnsupportedTime || r.error == OutOfRange
    ensures r.Success? && r.value.Some? ==> MinDateTimeMs - localOffsetMs <= r.value.value <= nowMs - localOffsetMs
  {
    if t.None? || t.value == "" then Success(None)
    else match MatchDuration(t.value)
      case None => Failure(UnsupportedTime)
      case Some(d) =>
        var wall := nowMs - d.count * d.unitMs;
        if wall < MinDateTimeMs then Failure(OutOfRange) else Success(Some(wall - localOffsetMs))
  }

  /** Leading digits followed by a unit letter: the bound is now minus that many units,
      whatever text follows the unit letter. */
  lemma {:induction false} ParseTimeRelative(digits: string, unit: char, rest: string, nowMs: int)
    requires |digits| >= 1 && forall i :: 0 <= i < |digits| ==> IsDigit(digits[i])
    requires IsUnit(unit)
    ensures var bound := nowMs - DigitsValue(digits) * UnitMs(unit);
            ParseTime(Some(digits + [unit] + rest), nowMs)
              == if bound < MinDateTimeMs then Failure(OutOfRange) else Success(Some(bound))
  {
    var t := digits + [unit] + rest;
    LeadingDigitsOf(digits, [unit] + rest);
    assert t == digits + ([unit] + rest);
    assert t[..|digits|] == digits;
  }

  /** The digit run of `digits + tail` is `digits` when `tail` does not start with a digit. */
  lemma {:induction false} LeadingDigitsOf(digits: string, tail: string)
    requires forall i :: 0 <= i < |digits| ==> IsDigit(digits[i])
    requires tail != [] && !IsDigit(tail[0])
    ensures LeadingDigits(digits + tail) == |digits|
  {
    if digits != [] {
      LeadingDigitsOf(digits[1..], tail);
      assert (digits + tail)[1..] == digits[1..] + tail;
    }
  }

  /** Text that does not start with a duration (such as `6`, `h6`, ` 6h` or `-6h`)
      is rejected as unsupported. */
  lemma ParseTimeRejects(t: string, nowMs: int)
    requires t != "" && !StartsWithDuration(t)
    ensures ParseTime(Some(t), nowMs) == Failure(UnsupportedTime)
  {
    MatchDurationIff(t);
  }

  /** The source's resolver agrees with the corrected one on every failure and on every
      missing bound, and is off by exactly the local zone offset on every bound. */
  lemma AsWrittenIsShifted(t: Option<string>, nowMs: int, localOffsetMs: int)
    ensures ParseTimeAsWritten(t, nowMs, localOffsetMs)
      == match ParseTime(t, nowMs)
         case Success(Some(b)) => Success(Some(b - localOffsetMs))
         case other => other
  {
  }

  /** On a machine five hours west of Greenwich, `6h` reaches back only one hour. */
  lemma AsWrittenSixHoursWestOfUtc(nowMs: int)
    requires nowMs >= 0
    ensures ParseTimeAsWritten(Some("6h"), nowMs, -5 * HourMs) == Success(Some(nowMs - HourMs))
    ensures ParseTime(Some("6h"), nowMs) == Success(Some(nowMs - 6 * HourMs))
  {
    ParseTimeRelative("6", 'h', "", nowMs);
    assert "6" + ['h'] + "" == "6h";
    assert DigitsValue("6") == 6 by {
      assert "6"[..0] == "";
    }
  }
}

=== FILE: values.dfy ===
/** Values that flow through the log pipeline: the dynamically typed field values
    of an envelope or a decoded message, the failures the pipeline can raise, and
    the Option/Result wrappers used to return them. */
module Values {

  datatype Option<+T> = None | Some(value: T)

  datatype Result<+R, +E> = Success(value: R) | Failure(error: E)

  /** A field value. JSON decoding yields Null, Bool, Num, Str, Arr and Obj (only
      integral numbers are modelled); the normalizer adds the two date-time kinds. */
  datatype Value =
    | Null
    | Bool(b: bool)
    | Num(n: int)
    | Str(s: string)
    | Arr(items: seq<Value>)
    | Obj(fields: map<string, Value>)
      /** An aware date-time in UTC, given by its instant (totally ordered). */
    | UtcTime(instant: int)
      /** A naive local wall-clock date-time: the local reading of epoch millisecond `ms`. */
    | LocalTime(ms: int)

  /** A normalized event, and a raw envelope: both are string-keyed dictionaries. */
  type Event = map<string, Value>
  type Envelope = map<string, Value>

  /** The exceptions the pipeline lets escape. */
  datatype Error =
      /** parse_time on text that is not a relative duration: `NotImplemented()` is
          not callable, so the raise itself fails with a TypeError */
    | UnsupportedTime
      /** the duration reaches before the first representable date-time (OverflowError) */
    | OutOfRange
      /** KeyError on a missing dictionary key */
    | KeyMissing(key: string)
      /** json.loads on text that is not JSON */
    | NotJson
      /** the date parser rejected the message's timestamp text */
    | BadDate
      /** TypeError: a value of the wrong kind reached an operation */
    | WrongType
}
